=== FILE: README.md ===
# makedef.py in Dafny

`packaging/makedef.py` turns what a symbol dumper prints about a library
into an exports file for that library. It works in two steps.

First it collects symbol names, using one of two dumpers:

- With `--nm`, it reads the output of `nm --defined-only -g`. It drops lines
  that contain a colon, which name object files, and lines that are empty.
  From each remaining line it takes the third whitespace-separated field, then
  removes the `--prefix` once from the front of it.
- Otherwise it reads the output of `dumpbin -linkermember:1`. It cuts out the
  symbol table between the last line containing `public symbols` and the
  last line that matches `\s+Summary` at its start. Inside that table it
  replaces every whitespace run that is followed by the prefix, together
  with the prefix, by one space. It then collapses the remaining whitespace
  runs, drops empty lines, and takes the second field of each line.

Second, it writes the distinct names in code-point order in one of three
dialects:

- `msvc`: a module-definition file, the `EXPORTS` header followed by the
  names indented by four spaces.
- `darwin`: a plain list of names.
- Anything else, including the default `windows`: a GNU ld version script
  tagged with the library's stem.

The model keeps the Python semantics the script relies on:

- `str.split()`, and `str.isspace()` with its 29 whitespace code points,
  which are also `\s` in `re`.
- Substring tests, `startswith`, and slicing with clamped bounds.
- `re.match` anchored at the start, and `re.sub` with a greedy `\s+` that
  backtracks when the literal after it does not match.
- `sorted(set(...))` on strings, ordered by code point.
- `str.join`, and `print`, which appends a line feed.

Exceptions the script would raise become values of `Results.ParseError`:

- `MissingStart` and `MissingEnd` are the `NameError` raised when the loop
  never sets `start` or `end`. `start` is evaluated first.
- `MissingField(k)` is the `IndexError` from `split()[k]`.

Modules, in dependency order:

- `Results`: errors and results.
- `Seqs`: list comprehensions and the last-match scan.
- `Text`: whitespace, fields, `removeprefix`, joining, printing.
- `Order`: string order and `sorted(set())`.
- `Subst`: the two `re.sub` calls.
- `Columns`: `split()[k]` over a list.
- `Nm`, `Dumpbin`: the two extraction paths.
- `Exports`: the three dialects.
- `MakeDef`: the whole run.

The comment at packaging/makedef.py:62-65 says the table starts after the
first line with `public symbols` and ends at the line with ` Summary`. The
loop at lines 66-70 overwrites `start` and `end` on every match, so the
last header line and the last end line count. The model follows the loop. A
line holding both markers counts only as a header, because of the `elif`.

A few consequences of the code as written, all modelled:

- Prefix removal takes off one leading copy only, so it is not idempotent:
  `Text.RemovePrefixNotIdempotent` uses the input `"aab"` with prefix `"a"`.
- The version script joins the symbol lines with `";\n"`, so the last
  symbol line has no `;`.
- The version tag comes from `Path.stem`, so `mylib.dll` is tagged `mylib`.
- argparse does not check a default against `choices`, so the default
  format `windows` reaches the `else` branch and writes a version script.

## Model

| member | source | states |
|---|---|---|
| Text.RemovePrefix | packaging/makedef.py:39-43 | Either the prefix is followed by the result to make up the input, or the input does not start with the prefix and comes back unchanged. The result is always a suffix of the input. An empty prefix changes nothing. A word without whitespace stays one. |
| Text.RemovePrefixCancels | packaging/makedef.py:39-43 | Removing a prefix undoes prepending it. |
| Text.RemovePrefixNotIdempotent | packaging/makedef.py:39-43 | Only one leading copy is removed, so applying removal twice can differ from applying it once. |
| Text.RemovePrefixAll | packaging/makedef.py:57 | The comprehension keeps the length and applies removal to every name, position by position. |
| Text.RemovePrefixAllAppend | packaging/makedef.py:57 | Removing the prefix from a joined list equals joining the two lists after removal. |
| Text.ContainsIff | packaging/makedef.py:67 | `t in s` holds exactly when `t` occurs at some explicit position of `s`. |
| Text.Fields | packaging/makedef.py:55 | Every field `split()` returns is non-empty and free of whitespace. A line that starts with a non-space character has at least one field. |
| Text.FieldsAfterSpace | packaging/makedef.py:79-80 | Leading whitespace adds no field, as the comment on line 79 relies on. |
| Text.FieldsAfterWord | packaging/makedef.py:55 | A word followed by whitespace or the end of the line is the first field, and the rest of the line supplies the others. |
| Text.FieldsEmptyIff | packaging/makedef.py:53-55 | A line has no field exactly when it is all whitespace. |
| Text.FieldsOfJoin | packaging/makedef.py:55 | Splitting undoes a join with single spaces of non-empty words without whitespace. |
| Text.LinesOfUnlines | packaging/makedef.py:82-93 | Text written by a series of `print` calls, each without a line feed, reads back line by line as exactly those strings. |
| Text.PrintJoin | packaging/makedef.py:84 | Printing a line-feed join of a non-empty list writes the same text as printing each element. |
| Seqs.Filter | packaging/makedef.py:51-53 | A comprehension with a condition keeps exactly the elements that meet the condition, never more than it was given, and only such elements. |
| Seqs.FilterAppend | packaging/makedef.py:51-53 | A filter keeps relative order: filtering a joined list joins the filtered parts. |
| Seqs.FilterSingle | packaging/makedef.py:51-53 | A single element is kept or dropped whole. |
| Seqs.FilterSkip | packaging/makedef.py:51-53 | An element the filter rejects can be removed from anywhere without changing the result. |
| Seqs.LastIndexWhere | packaging/makedef.py:66-70 | It finds nothing exactly when no element qualifies. Otherwise the index it finds qualifies and no later index does. |
| Order.LessIrreflexive | packaging/makedef.py:84 | No string sorts before itself. |
| Order.LessTransitive | packaging/makedef.py:84 | The string order is transitive. |
| Order.LessTotal | packaging/makedef.py:84 | Any two different strings are ordered one way or the other. |
| Order.LessAsymmetric | packaging/makedef.py:84 | Two strings are never ordered both ways. |
| Order.LessAfterCommonPrefix | packaging/makedef.py:90 | A common indentation does not change how two names compare. |
| Order.Insert | packaging/makedef.py:84 | Inserting into a strictly sorted list keeps it strictly sorted. It adds the new string and loses nothing. |
| Order.SortedDistinct | packaging/makedef.py:84 | `sorted(set(xs))` is strictly increasing and holds exactly the strings of `xs`. |
| Order.StrictlySortedUnique | packaging/makedef.py:84 | Two strictly sorted lists with the same strings are equal. |
| Order.SortedDistinctCanonical | packaging/makedef.py:84 | Lists with the same strings, in any order and with any repetition, give the same sorted distinct list. |
| Order.SortedDistinctFixes | packaging/makedef.py:84 | A list that is already strictly sorted is its own sorted distinct list. |
| Order.SortedDistinctIndented | packaging/makedef.py:90 | Indenting then sorting equals sorting then indenting. |
| Subst.LongestMatch | packaging/makedef.py:73 | `\s+` followed by the prefix takes the longest whitespace run after which the prefix still matches. It reports no match when no such run exists. |
| Subst.Step | packaging/makedef.py:73 | Each step of the scan consumes at least one character and never more than remain. |
| Subst.SubstituteKeepsLead | packaging/makedef.py:73-77 | The substitution never empties a non-empty line, and a line that starts with whitespace still does afterwards. |
| Subst.RunMatch | packaging/makedef.py:73 | When the prefix has no whitespace, a match at a run uses the whole run and is found exactly when the word after the run starts with the prefix. |
| Subst.StripAllEmpty | packaging/makedef.py:73 | With the default empty prefix no field is changed. |
| Subst.SubstituteKeepsAllSpace | packaging/makedef.py:73 | For any prefix, substituting in a line of whitespace only leaves whitespace only. |
| Subst.SubstituteAllSpace | packaging/makedef.py:73 | For any prefix, a line of whitespace only has no field before or after the substitution. |
| Subst.SubstituteAtMatch | packaging/makedef.py:73 | For any prefix: when the prefix follows a whitespace run, the run and the prefix become one space, and the scan goes on after the prefix. |
| Subst.SubstituteAtNoMatch | packaging/makedef.py:73 | For a prefix without whitespace: a whitespace run not followed by the prefix is kept as it is. |
| Subst.SubstituteMatchedRun | packaging/makedef.py:73 | For a prefix without whitespace, the fields after a matched run are the word without its prefix, unless that leaves it empty, followed by the fields of the rest. |
| Subst.SubstituteUnmatchedRun | packaging/makedef.py:73 | For a prefix without whitespace, the fields after an unmatched run are the word unchanged, followed by the fields of the rest. |
| Subst.SubstituteSpaceLed | packaging/makedef.py:73 | For a prefix without whitespace, on a line that is empty or starts with whitespace, the prefix substitution removes one leading copy of the prefix from every field and drops fields left empty. |
| Subst.SubstituteFields | packaging/makedef.py:73 | After the prefix substitution the fields are the line's own fields, with the prefix stripped from each field that follows whitespace. |
| Subst.CollapseFields | packaging/makedef.py:75 | Collapsing whitespace runs keeps the fields of a line. |
| Subst.CollapseSingleSpaces | packaging/makedef.py:75 | After collapsing, every whitespace character is a single space that is not followed by more whitespace. |
| Columns.FieldAt | packaging/makedef.py:55 | `[x.split()[k] for x in xs]` succeeds exactly when every line has a field `k`, and then yields those fields in order. Otherwise it raises the `IndexError` for `k`. Line 80 is the same with `k` = 1. |
| Columns.FieldAtAppendFails | packaging/makedef.py:55 | For any field index, as on lines 55 and 80: on a joined list it fails exactly when either part fails. |
| Columns.FieldAtAppend | packaging/makedef.py:55 | For any field index, as on lines 55 and 80: on a joined list whose parts both succeed, it yields the joined results. |
| Columns.FieldAtWords | packaging/makedef.py:55 | Every picked field is a non-empty word. |
| Nm.FiltersCompose | packaging/makedef.py:51-53 | The colon filter followed by the emptiness filter keeps exactly the lines that pass both. |
| Nm.KeptLines | packaging/makedef.py:51-53 | The lines that survive are the colon-free, non-empty lines, in order. |
| Nm.SymbolsOf | packaging/makedef.py:55-57 | Extraction from kept lines fails only with the missing third field. When it succeeds it gives one name per kept line, each free of whitespace. |
| Nm.SymbolsOfLine | packaging/makedef.py:49-57 | One line gives no symbol if it is an object-file line or empty. Otherwise it gives its third field without the prefix, or fails when that field is missing. |
| Nm.SymbolsAppend | packaging/makedef.py:49-57 | The listing is processed line by line. Two listings joined fail exactly when one of them fails, and otherwise give their symbols in order. |
| Nm.NoiseIgnored | packaging/makedef.py:50-53 | An object-file line or an empty line anywhere in the listing changes nothing. |
| Nm.BlankLineFails | packaging/makedef.py:53-55 | A non-empty line of whitespace only survives the filters and makes the whole run fail with the missing third field. |
| Nm.ThreeFieldLine | packaging/makedef.py:54-57 | A line of address, type letter and name gives the name without the prefix. |
| Dumpbin.EndLineIff | packaging/makedef.py:69 | The anchored `\s+Summary` matches exactly when the line starts with some non-empty whitespace followed by `Summary`. |
| Dumpbin.StartMarker | packaging/makedef.py:66-68 | `start` is unset exactly when no line holds `public symbols`. Otherwise it is one past such a line, and no later line holds the header. |
| Dumpbin.EndMarker | packaging/makedef.py:66-70 | `end` is unset exactly when no line is an end line without also being a header. Otherwise it is such a line, and it is the last one. |
| Dumpbin.ScanMarkers | packaging/makedef.py:66-70 | The loop as written, overwriting at every match, leaves both markers as the two definitions say. |
| Dumpbin.Slice | packaging/makedef.py:71 | A slice with bounds in order within the list is the subsequence. Bounds out of order give the empty list. |
| Dumpbin.Table | packaging/makedef.py:66-71 | Taking the table fails with the `start` error exactly when there is no header. It fails with the `end` error exactly when there is a header but no end line. |
| Dumpbin.TableWindow | packaging/makedef.py:66-71 | With the last header line at `i` and the last end-only line at `j`, the table is the lines strictly between them, or empty when `j` does not come after `i`. |
| Dumpbin.OnlyWindowCounts | packaging/makedef.py:62-80 | Lines before the last header line and from the last end line onwards contribute nothing: the symbols are those of the lines strictly between them. |
| Dumpbin.InvertedMarkers | packaging/makedef.py:66-71 | When the last header comes at or after the last end line, the run succeeds with no symbols. |
| Dumpbin.SubstituteAll | packaging/makedef.py:73 | Each table line gets the prefix substitution, position by position. |
| Dumpbin.CollapseAll | packaging/makedef.py:75 | Each line gets whitespace collapsing, position by position. |
| Dumpbin.NormaliseEmptyIff | packaging/makedef.py:73-77 | A line is empty after both substitutions exactly when it was empty before them. |
| Dumpbin.FilterNormalised | packaging/makedef.py:73-77 | Dropping empty lines after the substitutions equals dropping them before. |
| Dumpbin.NormaliseFields | packaging/makedef.py:73-80 | After both substitutions a line's fields are its own fields, with the prefix stripped from every field that follows whitespace. |
| Dumpbin.TableSymbols | packaging/makedef.py:73-80 | Extraction from a table fails only with the missing second field. Every name it yields is a non-empty word. |
| Dumpbin.Symbols | packaging/makedef.py:60-80 | The dumpbin path fails only with a missing marker or a missing second field. Every name it yields is a non-empty word. |
| Dumpbin.SymbolsSpec | packaging/makedef.py:66-80 | Stated without the regular expressions: a missing marker is passed on. Otherwise the run succeeds exactly when every non-empty table line has two fields after prefix stripping, and symbol `i` is the second such field of the `i`-th non-empty line. |
| Dumpbin.SymbolsFailOn | packaging/makedef.py:73-80 | Any non-empty table line with fewer than two fields after prefix stripping makes the run fail with the missing second field. |
| Dumpbin.BlankTableLineFails | packaging/makedef.py:73-80 | A whitespace-only line inside the table becomes a single space and makes the run fail with the missing second field. |
| Dumpbin.SymbolLineFields | packaging/makedef.py:73-80 | For any prefix without whitespace that leaves the offset unchanged, the empty default included: an indented offset followed by whitespace and a prefixed name normalises to exactly the fields offset and name, so the name without its prefix is what gets taken. |
| Exports.DialectOf | packaging/makedef.py:82-87 | `msvc` and `darwin` select their own dialects. Every other format, the default included, selects the version script. |
| Exports.VersionTag | packaging/makedef.py:88 | The tag has the stem's length and no dot. Each dot becomes `_` and every other character is kept. |
| Exports.VersionTagFixes | packaging/makedef.py:88 | A stem without dots is its own tag. |
| Exports.SemicolonsBetween | packaging/makedef.py:90 | Every line but the last gets a `;` and the last is left bare. |
| Exports.JoinSemicolons | packaging/makedef.py:90 | Joining with `";\n"` is the same as joining with line feeds after terminating all but the last element with `;`. |
| Exports.MsvcShape | packaging/makedef.py:82-84 | The MSVC output is exactly these lines, each ended by a line feed, and reads back as them: `EXPORTS` followed by each distinct name once, indented by four spaces, in code-point order. |
| Exports.DarwinShape | packaging/makedef.py:85-86 | The Darwin output is exactly these lines, each ended by a line feed, and reads back as them: each distinct name once, in code-point order. |
| Exports.GccShape | packaging/makedef.py:87-93 | The version script is exactly these lines, each ended by a line feed, and reads back as them: the tag line and `global:`, then the sorted distinct names behind two tabs with `;` after all but the last, then `local:`, `*;` and `};`. |
| Exports.EmptyRender | packaging/makedef.py:82-93 | With no names, each dialect still prints its frame, with one empty line where the names would be. |
| Exports.RenderCanonical | packaging/makedef.py:82-93 | The output depends only on which names occur, not on their order or repetition. |
| MakeDef.Symbols | packaging/makedef.py:45-80 | The nm path fails only with the missing third field. The dumpbin path fails only with a missing marker or a missing second field. |
| MakeDef.SymbolsOneLineEach | packaging/makedef.py:45-80 | No extracted name contains a line feed. |
| MakeDef.RunFails | packaging/makedef.py:45-93 | The script writes nothing and fails exactly when extraction fails, with the same error. |
| MakeDef.RunShape | packaging/makedef.py:45-93 | When extraction yields names, the written text is exactly the chosen dialect's frame around the sorted distinct names, one line feed after each line, and it reads back as those lines. |

## Left out

- Argument parsing (packaging/makedef.py:16-29) is left out; the format, prefix, choice of tool and library stem are parameters. On the command line argparse accepts only `msvc`, `darwin` and `gcc` for `--format`, but it does not check the default `windows` against `choices`. The model takes any format string and treats every value other than `msvc` and `darwin` as `gcc`, which covers both the accepted values and that default.
- The existence check on the library file (lines 33-35) is left out. It is I/O.
- Running `nm` or `dumpbin` is left out (lines 47-48, 60-61). Their output is given as a list of lines, so `splitlines()` and its exact set of line breaks are not modelled. Exit-status checking is absent from the dumpbin call, and its effect on output is not modelled either.
- `print` is modelled as text with a final line feed. Writing to standard output and newline translation are not modelled.
- `Path.stem` is not computed: the stem is an input.
- The prefix is treated as a literal string. Regular-expression metacharacters in `--prefix` are not given their `re` meaning.
- The unused `started = 0` (line 37) has no counterpart.
- Subst.SubstituteFields: proved only for a prefix without whitespace. The substitution itself is modelled for any literal prefix.
- Dumpbin.NormaliseFields: proved only for a prefix without whitespace, for the same reason.
- Dumpbin.SymbolsSpec: proved only for a prefix without whitespace. For other prefixes only `Dumpbin.Symbols` itself describes the result.
- Dumpbin.BlankTableLineFails: proved only for a prefix without whitespace.
- Dumpbin.SymbolsFailOn: proved only for a prefix without whitespace.
- Subst.SubstituteAtNoMatch: proved only for a prefix without whitespace. A prefix that begins with whitespace could match inside the run, after a shorter `\s+`.
- Subst.SubstituteMatchedRun: proved only for a prefix without whitespace.
- Subst.SubstituteUnmatchedRun: proved only for a prefix without whitespace.
- Subst.SubstituteSpaceLed: proved only for a prefix without whitespace.
- Dumpbin.SymbolLineFields: proved only for a prefix without whitespace, and only when removing the prefix leaves the offset unchanged.
- Exports.MsvcShape: stated for a non-empty list of names without line feeds. Exports.EmptyRender covers the empty list, and MakeDef.SymbolsOneLineEach shows that extracted names never contain line feeds.
- Exports.DarwinShape: stated for a non-empty list of names without line feeds, as for MsvcShape.
- Exports.GccShape: stated for a non-empty list of names without line feeds and a stem without line feeds, as for MsvcShape.
- MakeDef.RunShape: stated only for a stem without line feeds, so that the tag stays on one line.

=== FILE: columns.dfy ===
/** `[x.split()[k] for x in lines]`, the comprehension both extraction
    paths end with, including the IndexError it raises on a line with too
    few fields. */
module Columns {
  import opened Results
  import opened Text
  import opened Seqs

  /** Field `k` of every line, in order, or `MissingField(k)` as soon as a
      line has no field `k`. */
  function FieldAt(lines: seq<string>, k: nat): (r: Result<seq<string>>)
    ensures r.Ok? <==> forall i :: 0 <= i < |lines| ==> k < |Fields(lines[i])|
    ensures r.Ok? ==> |r.value| == |lines|
    ensures r.Ok? ==> forall i :: 0 <= i < |lines| ==> r.value[i] == Fields(lines[i])[k]
    ensures r.Err? ==> r.error == MissingField(k)
  {
    if lines == [] then Ok([])
    else if |Fields(lines[0])| <= k then Err(MissingField(k))
    else
      var rest :- FieldAt(lines[1..], k);
      assert forall i :: 0 < i < |lines| ==> lines[i] == lines[1..][i - 1];
      Ok([Fields(lines[0])[k]] + rest)
  }

  /** The comprehension works line by line: on joined lists it fails
      exactly when either part fails... */
  lemma {:induction false} FieldAtAppendFails(a: seq<string>, b: seq<string>, k: nat)
    ensures FieldAt(a + b, k).Ok? <==> FieldAt(a, k).Ok? && FieldAt(b, k).Ok?
  {
    if a == [] {
      assert a + b == b;
    } else {
      assert (a + b)[0] == a[0];
      assert (a + b)[1..] == a[1..] + b;
      FieldAtAppendFails(a[1..], b, k);
    }
  }

  /** ...and otherwise joins the parts' results, in order. */
  lemma {:induction false} FieldAtAppend(a: seq<string>, b: seq<string>, k: nat)
    requires FieldAt(a, k).Ok? && FieldAt(b, k).Ok?
    ensures FieldAt(a + b, k) == Ok(FieldAt(a, k).value + FieldAt(b, k).value)
  {
    if a == [] {
      assert a + b == b;
      assert FieldAt(a, k) == Ok([]);
      assert [] + FieldAt(b, k).value == FieldAt(b, k).value;
    } else {
      FieldAtCons(a, k);
      FieldAtAppend(a[1..], b, k);
      ConsAppend(a, b);
      FieldAtPrepend(a[0], a[1..] + b, k, a + b);
      AppendAssoc([Fields(a[0])[k]], FieldAt(a[1..], k).value, FieldAt(b, k).value);
    }
  }

  /** A list with a first line yields that line's field, then the rest's. */
  lemma FieldAtCons(xs: seq<string>, k: nat)
    requires xs != [] && FieldAt(xs, k).Ok?
    ensures k < |Fields(xs[0])| && FieldAt(xs[1..], k).Ok?
    ensures FieldAt(xs, k).value == [Fields(xs[0])[k]] + FieldAt(xs[1..], k).value
  {
  }

  /** Putting a line with a field `k` in front of a list that yields `r`
      yields that field followed by `r`. */
  lemma FieldAtPrepend(x: string, t: seq<string>, k: nat, xs: seq<string>)
    requires xs == [x] + t && k < |Fields(x)| && FieldAt(t, k).Ok?
    ensures FieldAt(xs, k) == Ok([Fields(x)[k]] + FieldAt(t, k).value)
  {
    assert xs[0] == x;
    assert xs[1..] == t;
  }

  /** Every picked field is a non-empty word without whitespace. */
  lemma FieldAtWords(lines: seq<string>, k: nat)
    requires FieldAt(lines, k).Ok?
    ensures forall i :: 0 <= i < |lines| ==>
      FieldAt(lines, k).value[i] != [] && NoSpace(FieldAt(lines, k).value[i])
  {
  }
}

=== FILE: dumpbin.dfy ===
/** The dumpbin path of makedef.py (packaging/makedef.py:60-80): the symbol
    table of `dumpbin -linkermember:1` is cut out between its markers, each
    line is normalised by two regular-expression substitutions, blank lines
    are dropped and the second field of each line is taken. */
module Dumpbin {
  import opened Results
  import opened Text
  import opened Seqs
  import opened Subst
  import opened Columns

  /** `'public symbols' in line`: the header of the symbol table. */
  predicate IsStartLine(line: string) {
    Contains(line, "public symbols")
  }

  /** `re.match(r'\s+Summary', line)`: `\s+` is anchored at the start of
      the line and gives back whitespace until `Summary` follows. */
  predicate IsEndLine(line: string) {
    LongestMatch(line, "Summary", SpaceRun(line)) > 0
  }

  /** The `elif`: a line that also holds the header never ends the table. */
  predicate IsEndOnly(line: string) {
    !IsStartLine(line) && IsEndLine(line)
  }

  /** The pattern `\s+Summary` matches at the start of `line` with `k`
      characters of whitespace. */
  predicate SummaryAt(line: string, k: int) {
    1 <= k <= |line| && AllSpace(line[..k]) && StartsWith(line[k..], "Summary")
  }

  /** The end marker is recognised exactly when some whitespace prefix is
      followed by `Summary`, which is what the regular expression asks. */
  lemma EndLineIff(line: string)
    ensures IsEndLine(line) <==> exists k :: SummaryAt(line, k)
  {
    var n := SpaceRun(line);
    if IsEndLine(line) {
      var j := LongestMatch(line, "Summary", n);
      assert line[..j] == line[..n][..j];
      assert SummaryAt(line, j);
    }
    if exists k :: SummaryAt(line, k) {
      var k :| SummaryAt(line, k);
      assert k <= n by {
        if k > n {
          assert false;
        }
      }
      assert StartsWith(line[k..], "Summary");
    }
  }

  /** `start` after the loop: one past the last header line, if any. */
  function StartMarker(dump: seq<string>): (r: Option<nat>)
    ensures r.None? <==> forall i :: 0 <= i < |dump| ==> !IsStartLine(dump[i])
    ensures r.Some? ==> 1 <= r.value <= |dump| && IsStartLine(dump[r.value - 1])
    ensures r.Some? ==> forall i :: r.value <= i < |dump| ==> !IsStartLine(dump[i])
  {
    match LastIndexWhere(IsStartLine, dump)
    case None => None
    case Some(i) => Some(i + 1)
  }

  /** `end` after the loop: the last line that matched the end pattern
      without being a header line, if any. */
  function EndMarker(dump: seq<string>): (r: Option<nat>)
    ensures r.None? <==> forall i :: 0 <= i < |dump| ==> !IsEndOnly(dump[i])
    ensures r.Some? ==> r.value < |dump| && IsEndOnly(dump[r.value])
    ensures r.Some? ==> forall i :: r.value < i < |dump| ==> !IsEndOnly(dump[i])
  {
    LastIndexWhere(IsEndOnly, dump)
  }

  /** The marker loop as written: every header line overwrites `start` and
      every other end line overwrites `end`, so the last ones win. */
  method ScanMarkers(dump: seq<string>) returns (start: Option<nat>, end: Option<nat>)
    ensures start == StartMarker(dump) && end == EndMarker(dump)
  {
    start, end := None, None;
    var i := 0;
    while i < |dump|
      invariant 0 <= i <= |dump|
      invariant start == StartMarker(dump[..i])
      invariant end == EndMarker(dump[..i])
    {
      assert dump[..i + 1][..i] == dump[..i];
      if IsStartLine(dump[i]) {
        start := Some(i + 1);
      } else if IsEndLine(dump[i]) {
        end := Some(i);
      }
      i := i + 1;
    }
    assert dump[..i] == dump;
  }

  /** Python's `xs[a:b]` for non-negative bounds: both are clamped to the
      length and an inverted range is empty. */
  function Slice<T>(xs: seq<T>, a: nat, b: nat): (r: seq<T>)
    ensures a <= b <= |xs| ==> r == xs[a..b]
    ensures b <= a ==> r == []
  {
    var lo := if a < |xs| then a else |xs|;
    var hi := if b < |xs| then b else |xs|;
    if lo < hi then xs[lo..hi] else []
  }

  /** `dump[start:end]`, or the NameError of whichever marker is missing;
      `start` is evaluated first. */
  function Table(dump: seq<string>): (r: Result<seq<string>>)
    ensures r == Err(MissingStart) <==> StartMarker(dump).None?
    ensures r == Err(MissingEnd) <==> StartMarker(dump).Some? && EndMarker(dump).None?
  {
    var start := StartMarker(dump);
    var end := EndMarker(dump);
    if start.None? then Err(MissingStart)
    else if end.None? then Err(MissingEnd)
    else Ok(Slice(dump, start.value, end.value))
  }

  /** The table is the stretch strictly between the last header line `i`
      and the last end-only line `j`, and empty when the header comes
      after the end. */
  lemma TableWindow(dump: seq<string>, i: nat, j: nat)
    requires i < |dump| && IsStartLine(dump[i])
    requires forall k :: i < k < |dump| ==> !IsStartLine(dump[k])
    requires j < |dump| && IsEndOnly(dump[j])
    requires forall k :: j < k < |dump| ==> !IsEndOnly(dump[k])
    ensures Table(dump) == Ok(if i < j then dump[i + 1..j] else [])
  {
    var s := StartMarker(dump);
    var e := EndMarker(dump);
    assert s.Some? && s.value == i + 1 by {
      assert !s.None?;
      if s.value - 1 != i {
        assert false;
      }
    }
    assert e.Some? && e.value == j by {
      assert !e.None?;
      if e.value != j {
        assert false;
      }
    }
  }

  /** `[re.sub(f'\s+{prefix}', ' ', x) for x in dump]`. */
  function SubstituteAll(xs: seq<string>, p: string): (r: seq<string>)
    ensures |r| == |xs|
    ensures forall i :: 0 <= i < |xs| ==> r[i] == Substitute(xs[i], p)
  {
    Map(x => Substitute(x, p), xs)
  }

  /** `[re.sub('\s+', ' ', x) for x in dump]`. */
  function CollapseAll(xs: seq<string>): (r: seq<string>)
    ensures |r| == |xs|
    ensures forall i :: 0 <= i < |xs| ==> r[i] == Collapse(xs[i])
  {
    Map(Collapse, xs)
  }

  /** Both substitutions of one line. */
  function Normalise(x: string, p: string): string {
    Collapse(Substitute(x, p))
  }

  /** The second field of every non-blank normalised line of a table. */
  function TableSymbols(table: seq<string>, prefix: string): (r: Result<seq<string>>)
    ensures r.Err? ==> r.error == MissingField(1)
    ensures r.Ok? ==> forall i :: 0 <= i < |r.value| ==> r.value[i] != [] && NoSpace(r.value[i])
  {
    var substituted := SubstituteAll(table, prefix);
    var collapsed := CollapseAll(substituted);
    var nonBlank := Filter(NonEmpty, collapsed);
    FieldAt(nonBlank, 1)
  }

  /** The symbols of a dumpbin listing. */
  function Symbols(dump: seq<string>, prefix: string): (r: Result<seq<string>>)
    ensures r.Err? ==> r.error == MissingStart || r.error == MissingEnd || r.error == MissingField(1)
    ensures r.Ok? ==> forall i :: 0 <= i < |r.value| ==> r.value[i] != [] && NoSpace(r.value[i])
  {
    var table :- Table(dump);
    TableSymbols(table, prefix)
  }

  /** Only the lines strictly between the last header and the last end line
      count: whatever stands elsewhere contributes nothing. */
  lemma OnlyWindowCounts(dump: seq<string>, p: string, i: nat, j: nat)
    requires i < |dump| && IsStartLine(dump[i])
    requires forall k :: i < k < |dump| ==> !IsStartLine(dump[k])
    requires j < |dump| && IsEndOnly(dump[j])
    requires forall k :: j < k < |dump| ==> !IsEndOnly(dump[k])
    requires i < j
    ensures Symbols(dump, p) == TableSymbols(dump[i + 1..j], p)
  {
    TableWindow(dump, i, j);
  }

  /** Substitution empties no line, so the blank lines dropped after it
      are exactly the lines that were blank before it. */
  lemma NormaliseEmptyIff(x: string, p: string)
    ensures Normalise(x, p) == [] <==> x == []
  {
    SubstituteKeepsLead(x, p);
    SubstituteKeepsLead(Substitute(x, p), "");
  }

  /** After both substitutions a line splits into its own fields, with the
      prefix stripped from each field that whitespace precedes. */
  lemma NormaliseFields(x: string, p: string)
    requires NoSpace(p)
    ensures Fields(Normalise(x, p)) == StrippedFields(x, p)
  {
    CollapseFields(Substitute(x, p));
    SubstituteFields(x, p);
  }

  /** Both substitutions of one line, for a fixed prefix. */
  function NormaliseBy(p: string): string -> string {
    x => Normalise(x, p)
  }

  /** The two comprehensions in a row normalise every line. */
  lemma NormaliseAll(xs: seq<string>, p: string)
    ensures CollapseAll(SubstituteAll(xs, p)) == Map(NormaliseBy(p), xs)
  {
  }

  /** Dropping blank lines commutes with normalising. */
  lemma FilterNormalised(xs: seq<string>, p: string)
    ensures Filter(NonEmpty, CollapseAll(SubstituteAll(xs, p)))
      == CollapseAll(SubstituteAll(Filter(NonEmpty, xs), p))
  {
    forall x ensures NonEmpty(NormaliseBy(p)(x)) <==> NonEmpty(x) {
      NormaliseEmptyIff(x, p);
    }
    NormaliseAll(xs, p);
    NormaliseAll(Filter(NonEmpty, xs), p);
    FilterMap(NonEmpty, NormaliseBy(p), xs);
  }

  /** The symbols stated without the substitutions: a listing fails when
      its markers are missing or when a non-blank table line has fewer than
      two fields once the prefix is stripped; otherwise symbol `i` is the
      second such field of the `i`-th non-blank table line. */
  lemma SymbolsSpec(dump: seq<string>, p: string)
    requires NoSpace(p)
    ensures Table(dump).Err? ==> Symbols(dump, p) == Err(Table(dump).error)
    ensures Table(dump).Ok? ==>
      var lines := Filter(NonEmpty, Table(dump).value);
      && (Symbols(dump, p).Ok? <==> forall i :: 0 <= i < |lines| ==> 1 < |StrippedFields(lines[i], p)|)
      && (Symbols(dump, p).Err? ==> Symbols(dump, p).error == MissingField(1))
      && (Symbols(dump, p).Ok? ==>
            && |Symbols(dump, p).value| == |lines|
            && forall i :: 0 <= i < |lines| ==> Symbols(dump, p).value[i] == StrippedFields(lines[i], p)[1])
  {
    if Table(dump).Ok? {
      var table := Table(dump).value;
      var lines := Filter(NonEmpty, table);
      FilterNormalised(table, p);
      var normal := CollapseAll(SubstituteAll(lines, p));
      forall i | 0 <= i < |lines| ensures Fields(normal[i]) == StrippedFields(lines[i], p) {
        NormaliseFields(lines[i], p);
      }
    }
  }

  /** A whitespace-only line inside the table leaves a single space, which
      has no second field: the listing fails. */
  lemma BlankTableLineFails(dump: seq<string>, p: string, x: string)
    requires NoSpace(p) && Table(dump).Ok? && x in Table(dump).value
    requires x != [] && AllSpace(x)
    ensures Symbols(dump, p) == Err(MissingField(1))
  {
    var lines := Filter(NonEmpty, Table(dump).value);
    assert x in lines;
    StrippedFieldsOfBlank(x, p);
    SymbolsFailOn(dump, p, x);
  }

  /** Any non-blank table line with fewer than two fields once the prefix
      is stripped makes the listing fail. */
  lemma SymbolsFailOn(dump: seq<string>, p: string, x: string)
    requires NoSpace(p)
    ensures Table(dump).Ok? && x in Filter(NonEmpty, Table(dump).value) && |StrippedFields(x, p)| < 2
      ==> Symbols(dump, p) == Err(MissingField(1))
  {
    if Table(dump).Ok? && x in Filter(NonEmpty, Table(dump).value) && |StrippedFields(x, p)| < 2 {
      SymbolsSpec(dump, p);
      var lines := Filter(NonEmpty, Table(dump).value);
      var i :| 0 <= i < |lines| && lines[i] == x;
    }
  }

  lemma StrippedFieldsOfBlank(x: string, p: string)
    requires x != [] && AllSpace(x)
    ensures StrippedFields(x, p) == []
  {
    FieldsEmptyIff(x);
  }

  /** A header that comes after the last end line gives an empty table and
      no symbols. */
  lemma InvertedMarkers(dump: seq<string>, p: string, i: nat, j: nat)
    requires i < |dump| && IsStartLine(dump[i])
    requires forall k :: i < k < |dump| ==> !IsStartLine(dump[k])
    requires j < |dump| && IsEndOnly(dump[j])
    requires forall k :: j < k < |dump| ==> !IsEndOnly(dump[k])
    requires j <= i
    ensures Symbols(dump, p) == Ok([])
  {
    TableWindow(dump, i, j);
  }

  /** A symbol line as dumpbin prints it, an indented offset and an
      indented prefixed name, yields the offset and the bare name as its
      two fields: the prefix goes, the offset stays. */
  lemma SymbolLineFields(sp: string, offset: string, sp2: string, p: string, name: string)
    requires sp != [] && AllSpace(sp) && sp2 != [] && AllSpace(sp2)
    requires offset != [] && NoSpace(offset) && RemovePrefix(offset, p) == offset
    requires name != [] && NoSpace(name) && NoSpace(p)
    ensures Fields(Normalise(sp + offset + sp2 + p + name, p)) == [offset, name]
  {
    NormaliseFields(sp + offset + sp2 + p + name, p);
    NoSpaceConcat(p, name);
    StrippedSymbolLine(sp, offset, sp2, p, name, sp + offset + sp2 + p + name);
  }

  lemma StrippedSymbolLine(sp: string, offset: string, sp2: string, p: string, name: string, line: string)
    requires sp != [] && AllSpace(sp) && sp2 != [] && AllSpace(sp2)
    requires offset != [] && NoSpace(offset) && RemovePrefix(offset, p) == offset
    requires name != [] && NoSpace(p + name)
    requires line == sp + offset + sp2 + p + name
    ensures StrippedFields(line, p) == [offset, name]
  {
    assert line == sp + (offset + (sp2 + (p + name)));
    FieldsOfSymbolLine(sp, offset, sp2, p + name);
    RemovePrefixCancels(p, name);
    assert line[0] == sp[0];
    assert [offset, p + name][1..] == [p + name];
    assert StripAll([p + name], p) == [name];
    assert StripAll([offset, p + name], p) == [offset, name];
  }

  /** Two words behind whitespace are the two fields. */
  lemma FieldsOfSymbolLine(sp: string, w1: string, sp2: string, w2: string)
    requires sp != [] && AllSpace(sp) && sp2 != [] && AllSpace(sp2)
    requires w1 != [] && NoSpace(w1) && w2 != [] && NoSpace(w2)
    ensures Fields(sp + (w1 + (sp2 + w2))) == [w1, w2]
  {
    FieldsAfterWord(w2, []);
    assert w2 + [] == w2;
    FieldsAfterSpace(sp2, w2);
    FieldsAfterWord(w1, sp2 + w2);
    FieldsAfterSpace(sp, w1 + (sp2 + w2));
  }

}

=== FILE: exports.dfy ===
/** The three output dialects of makedef.py (packaging/makedef.py:82-93):
    a module-definition file for MSVC, a plain symbol list for Darwin, and a
    version script for GNU ld. Each is modelled as the exact text written
    to standard output. */
module Exports {
  import opened Seqs
  import opened Text
  import opened Order

  datatype Dialect = Msvc | Darwin | Gcc

  /** The `if`/`elif`/`else` on `--format`: anything but `msvc` and
      `darwin`, the default `windows` included, selects the version
      script. */
  function DialectOf(format: string): (d: Dialect)
    ensures d == Msvc <==> format == "msvc"
    ensures d == Darwin <==> format == "darwin"
    ensures d == Gcc <==> format != "msvc" && format != "darwin"
  {
    if format == "msvc" then Msvc
    else if format == "darwin" then Darwin
    else Gcc
  }

  /** `stem.replace('.', '_')`: the version tag of the script. */
  function VersionTag(stem: string): (r: string)
    ensures |r| == |stem| && '.' !in r
    ensures forall i :: 0 <= i < |stem| && stem[i] != '.' ==> r[i] == stem[i]
    ensures forall i :: 0 <= i < |stem| && stem[i] == '.' ==> r[i] == '_'
  {
    if stem == [] then []
    else [if stem[0] == '.' then '_' else stem[0]] + VersionTag(stem[1..])
  }

  /** A stem without dots is its own tag. */
  lemma VersionTagFixes(stem: string)
    requires '.' !in stem
    ensures VersionTag(stem) == stem
  {
  }

  /** Every name but the last followed by `;`, which is what joining with
      `";\n"` amounts to line by line. */
  function SemicolonsBetween(xs: seq<string>): (r: seq<string>)
    ensures |r| == |xs|
    ensures forall i :: 0 <= i < |xs| - 1 ==> r[i] == xs[i] + ";"
    ensures xs != [] ==> r[|xs| - 1] == xs[|xs| - 1]
  {
    if |xs| <= 1 then xs else [xs[0] + ";"] + SemicolonsBetween(xs[1..])
  }

  /** The strings `makedef.py` passes to `print`, one per call. */
  function Printed(format: string, stem: string, names: seq<string>): seq<string> {
    match DialectOf(format)
    case Msvc => ["EXPORTS", Join("\n", SortedDistinct(Indented("    ", names)))]
    case Darwin => [Join("\n", SortedDistinct(names))]
    case Gcc =>
      [ VersionTag(stem) + " {",
        "\tglobal:",
        Join(";\n", SortedDistinct(Indented("\t\t", names))),
        "\tlocal:",
        "\t\t*;",
        "};" ]
  }

  /** The text written to standard output. */
  function Render(format: string, stem: string, names: seq<string>): string {
    Unlines(Printed(format, stem, names))
  }

  /** Joining with `";\n"` is joining with line feeds after terminating all
      but the last element with `;`. */
  lemma {:induction false} JoinSemicolons(xs: seq<string>)
    ensures Join(";\n", xs) == Join("\n", SemicolonsBetween(xs))
  {
    if |xs| > 1 {
      var rest := Join(";\n", xs[1..]);
      var s := SemicolonsBetween(xs);
      JoinSemicolons(xs[1..]);
      assert s == [xs[0] + ";"] + SemicolonsBetween(xs[1..]);
      assert s[0] == xs[0] + ";" && s[1..] == SemicolonsBetween(xs[1..]);
      assert Join("\n", s) == s[0] + "\n" + rest;
      assert Join(";\n", xs) == xs[0] + ";\n" + rest;
      assert xs[0] + ";\n" + rest == (xs[0] + ";") + "\n" + rest;
    }
  }

  lemma IndentedNoLineFeed(pre: string, xs: seq<string>)
    requires '\n' !in pre && NoLineFeed(xs)
    ensures NoLineFeed(Indented(pre, xs))
  {
    forall i | 0 <= i < |xs| ensures '\n' !in Indented(pre, xs)[i] {
      assert Indented(pre, xs)[i] == pre + xs[i];
    }
  }

  lemma SortedDistinctNoLineFeed(xs: seq<string>)
    requires NoLineFeed(xs)
    ensures NoLineFeed(SortedDistinct(xs))
  {
    var s := SortedDistinct(xs);
    forall i | 0 <= i < |s| ensures '\n' !in s[i] {
      assert s[i] in xs;
    }
  }

  lemma SemicolonsNoLineFeed(xs: seq<string>)
    requires NoLineFeed(xs)
    ensures NoLineFeed(SemicolonsBetween(xs))
  {
  }

  /** The sorted distinct names of a non-empty list are not empty. */
  lemma SortedDistinctNonEmpty(xs: seq<string>)
    requires xs != []
    ensures SortedDistinct(xs) != []
  {
    assert xs[0] in xs;
  }

  lemma UnlinesSingle(x: string)
    ensures Unlines([x]) == Print(x)
  {
    assert [x][1..] == [];
    assert Print(x) + [] == Print(x);
  }

  /** Printing fixed lines, then a non-empty list joined by line feeds, then
      more fixed lines writes a text that reads back as all those lines. */
  lemma LinesOfFramed(head: seq<string>, body: seq<string>, tail: seq<string>)
    requires body != [] && NoLineFeed(head) && NoLineFeed(body) && NoLineFeed(tail)
    ensures Unlines(head + [Join("\n", body)] + tail) == Unlines(head + body + tail)
    ensures Lines(Unlines(head + [Join("\n", body)] + tail)) == head + body + tail
  {
    UnlinesFramed(head, body, tail);
    NoLineFeedAppend(head, body);
    NoLineFeedAppend(head + body, tail);
    LinesOfUnlines(head + body + tail);
  }

  /** Printing a line-feed join is printing its lines one by one. */
  lemma UnlinesFramed(head: seq<string>, body: seq<string>, tail: seq<string>)
    requires body != []
    ensures Unlines(head + [Join("\n", body)] + tail) == Unlines(head + body + tail)
  {
    PrintJoin(body);
    UnlinesSingle(Join("\n", body));
    UnlinesAppend(head, [Join("\n", body)]);
    UnlinesAppend(head + [Join("\n", body)], tail);
    UnlinesAppend(head, body);
    UnlinesAppend(head + body, tail);
  }

  lemma NoLineFeedAppend(a: seq<string>, b: seq<string>)
    requires NoLineFeed(a) && NoLineFeed(b)
    ensures NoLineFeed(a + b)
  {
    forall i | 0 <= i < |a + b| ensures '\n' !in (a + b)[i] {
      if i >= |a| {
        assert (a + b)[i] == b[i - |a|];
      }
    }
  }

  /** The indented sorted names form a non-empty list of single lines. */
  lemma IndentedBody(pre: string, names: seq<string>)
    requires '\n' !in pre && names != [] && NoLineFeed(names)
    ensures SortedDistinct(Indented(pre, names)) == Indented(pre, SortedDistinct(names))
    ensures Indented(pre, SortedDistinct(names)) != []
    ensures NoLineFeed(Indented(pre, SortedDistinct(names)))
  {
    SortedDistinctIndented(pre, names);
    SortedDistinctNonEmpty(names);
    SortedDistinctNoLineFeed(names);
    IndentedNoLineFeed(pre, SortedDistinct(names));
  }

  /** The MSVC file: the `EXPORTS` header, then each distinct name once,
      indented by four spaces, in code-point order, every line ending in a
      line feed. */
  lemma MsvcShape(stem: string, names: seq<string>)
    requires names != [] && NoLineFeed(names)
    ensures Render("msvc", stem, names) == Unlines(["EXPORTS"] + Indented("    ", SortedDistinct(names)))
    ensures Lines(Render("msvc", stem, names)) == ["EXPORTS"] + Indented("    ", SortedDistinct(names))
  {
    var body := Indented("    ", SortedDistinct(names));
    IndentedBody("    ", names);
    assert '\n' !in "EXPORTS";
    MsvcPrinted(stem, names);
    LinesOfFramed(["EXPORTS"], body, []);
    assert ["EXPORTS"] + body + [] == ["EXPORTS"] + body;
  }

  /** The two lines the MSVC format prints, as a frame with an empty tail,
      which is the form `LinesOfFramed` takes. */
  lemma MsvcPrinted(stem: string, names: seq<string>)
    ensures Printed("msvc", stem, names)
      == ["EXPORTS"] + [Join("\n", SortedDistinct(Indented("    ", names)))] + []
  {
  }

  /** The Darwin list: each distinct name once, in code-point order, every
      line ending in a line feed. */
  lemma DarwinShape(stem: string, names: seq<string>)
    requires names != [] && NoLineFeed(names)
    ensures Render("darwin", stem, names) == Unlines(SortedDistinct(names))
    ensures Lines(Render("darwin", stem, names)) == SortedDistinct(names)
  {
    var body := SortedDistinct(names);
    SortedDistinctNonEmpty(names);
    SortedDistinctNoLineFeed(names);
    assert Printed("darwin", stem, names) == [] + [Join("\n", body)] + [];
    LinesOfFramed([], body, []);
    AppendEmpty(body);
  }

  /** The fixed lines of a version script before its symbol lines. */
  function GccHead(stem: string): seq<string> {
    [VersionTag(stem) + " {", "\tglobal:"]
  }

  /** The fixed lines of a version script after its symbol lines. */
  function GccTail(): seq<string> {
    ["\tlocal:", "\t\t*;", "};"]
  }

  lemma GccFrameNoLineFeed(stem: string)
    requires '\n' !in stem
    ensures NoLineFeed(GccHead(stem)) && NoLineFeed(GccTail())
  {
    var t := VersionTag(stem);
    var l := t + " {";
    forall i | 0 <= i < |l| ensures l[i] != '\n' {
      if i < |t| {
        assert l[i] == t[i];
      } else {
        assert l[i] == " {"[i - |t|];
      }
    }
  }

  lemma GccPrinted(format: string, stem: string, names: seq<string>)
    requires format != "msvc" && format != "darwin"
    ensures Printed(format, stem, names)
      == GccHead(stem) + [Join(";\n", SortedDistinct(Indented("\t\t", names)))] + GccTail()
  {
  }

  /** The version script: the tag line, `global:`, each distinct name once
      behind two tabs in code-point order and terminated by `;` except the
      last, then `local:` with the catch-all `*;` and the closing `};`. */
  lemma GccShape(format: string, stem: string, names: seq<string>)
    requires format != "msvc" && format != "darwin"
    requires names != [] && NoLineFeed(names) && '\n' !in stem
    ensures Render(format, stem, names)
      == Unlines(GccHead(stem) + SemicolonsBetween(Indented("\t\t", SortedDistinct(names))) + GccTail())
    ensures Lines(Render(format, stem, names))
      == GccHead(stem) + SemicolonsBetween(Indented("\t\t", SortedDistinct(names))) + GccTail()
  {
    var sorted := Indented("\t\t", SortedDistinct(names));
    IndentedBody("\t\t", names);
    SemicolonsNoLineFeed(sorted);
    GccFrameNoLineFeed(stem);
    JoinSemicolons(sorted);
    GccPrinted(format, stem, names);
    LinesOfFramed(GccHead(stem), SemicolonsBetween(sorted), GccTail());
  }

  lemma {:induction false} UnlinesAppend(a: seq<string>, b: seq<string>)
    ensures Unlines(a + b) == Unlines(a) + Unlines(b)
  {
    if a == [] {
      assert a + b == b;
    } else {
      assert (a + b)[1..] == a[1..] + b;
      UnlinesAppend(a[1..], b);
    }
  }

  /** With no names at all each dialect still writes its frame, with an
      empty line where the names would be. */
  lemma EmptyRender(format: string, stem: string)
    ensures DialectOf(format) == Msvc ==> Printed(format, stem, []) == ["EXPORTS", ""]
    ensures DialectOf(format) == Darwin ==> Printed(format, stem, []) == [""]
    ensures DialectOf(format) == Gcc ==> Printed(format, stem, []) == GccHead(stem) + [""] + GccTail()
  {
    assert Indented("    ", []) == [] && Indented("\t\t", []) == [];
    assert SortedDistinct([]) == [];
  }

  /** The output depends only on which names occur: reordering or repeating
      names does not change it. */
  lemma RenderCanonical(format: string, stem: string, a: seq<string>, b: seq<string>)
    requires SameElements(a, b)
    ensures Render(format, stem, a) == Render(format, stem, b)
  {
    SortedDistinctCanonical(a, b);
    SortedDistinctIndented("    ", a);
    SortedDistinctIndented("    ", b);
    SortedDistinctIndented("\t\t", a);
    SortedDistinctIndented("\t\t", b);
  }
}

=== FILE: makedef.dfy ===
/** The whole script minus its I/O (packaging/makedef.py:45-93): the lines
    a dumper printed become a list of symbol names, which is then written
    in the requested dialect. */
module MakeDef {
  import opened Results
  import opened Text
  import opened Order
  import Nm
  import Dumpbin
  import opened Exports

  /** `--nm` given selects the nm path; otherwise dumpbin is used. */
  datatype Tool = NmTool | DumpbinTool

  /** The names extracted from the dumper's output lines. */
  function Symbols(tool: Tool, dump: seq<string>, prefix: string): (r: Result<seq<string>>)
    ensures tool == NmTool && r.Err? ==> r.error == MissingField(2)
    ensures tool == DumpbinTool && r.Err? ==> r.error in {MissingStart, MissingEnd, MissingField(1)}
  {
    match tool
    case NmTool => Nm.Symbols(dump, prefix)
    case DumpbinTool => Dumpbin.Symbols(dump, prefix)
  }

  /** The text the script writes, or the exception that stops it before it
      writes anything. */
  function Run(tool: Tool, format: string, stem: string, dump: seq<string>, prefix: string): Result<string> {
    var names :- Symbols(tool, dump, prefix);
    Ok(Render(format, stem, names))
  }

  /** Extracted names hold no whitespace, so no line feed either. */
  lemma SymbolsOneLineEach(tool: Tool, dump: seq<string>, prefix: string)
    requires Symbols(tool, dump, prefix).Ok?
    ensures NoLineFeed(Symbols(tool, dump, prefix).value)
  {
    var names := Symbols(tool, dump, prefix).value;
    forall i | 0 <= i < |names| ensures '\n' !in names[i] {
      assert NoSpace(names[i]);
    }
  }

  /** The script fails exactly when extraction fails, with the same error,
      and nothing is written then. */
  lemma RunFails(tool: Tool, format: string, stem: string, dump: seq<string>, prefix: string)
    ensures Run(tool, format, stem, dump, prefix).Err? <==> Symbols(tool, dump, prefix).Err?
    ensures Run(tool, format, stem, dump, prefix).Err? ==>
      Run(tool, format, stem, dump, prefix).error == Symbols(tool, dump, prefix).error
  {
  }

  /** When symbols were found, the written text is exactly the lines of the
      chosen dialect's frame around the sorted distinct names, each ended by
      a line feed, and it reads back as those lines. */
  lemma RunShape(tool: Tool, format: string, stem: string, dump: seq<string>, prefix: string)
    ensures var found := Symbols(tool, dump, prefix);
      found.Ok? && found.value != [] && '\n' !in stem ==>
        var names := found.value;
        var text := Run(tool, format, stem, dump, prefix).value;
        && (format == "msvc" ==>
              var lines := ["EXPORTS"] + Indented("    ", SortedDistinct(names));
              text == Unlines(lines) && Lines(text) == lines)
        && (format == "darwin" ==>
              var lines := SortedDistinct(names);
              text == Unlines(lines) && Lines(text) == lines)
        && (format != "msvc" && format != "darwin" ==>
              var lines := GccHead(stem) + SemicolonsBetween(Indented("\t\t", SortedDistinct(names))) + GccTail();
              text == Unlines(lines) && Lines(text) == lines)
  {
    var found := Symbols(tool, dump, prefix);
    if found.Ok? && found.value != [] && '\n' !in stem {
      var names := found.value;
      SymbolsOneLineEach(tool, dump, prefix);
      if format == "msvc" {
        MsvcShape(stem, names);
      } else if format == "darwin" {
        DarwinShape(stem, names);
      } else {
        GccShape(format, stem, names);
      }
    }
  }
}

=== FILE: nm.dfy ===
/** The nm path of makedef.py (packaging/makedef.py:49-57): the lines of
    `nm --defined-only -g` are filtered, their third field is taken and the
    prefix removed from it. */
module Nm {
  import opened Results
  import opened Text
  import opened Seqs
  import opened Columns

  /** A line naming an object file (`foo.o:`) rather than a symbol. */
  predicate NamesObject(line: string) {
    ':' in line
  }

  predicate HasNoColon(line: string) {
    !NamesObject(line)
  }

  /** A line the two filters keep: no colon, not empty. */
  predicate IsSymbolLine(line: string) {
    HasNoColon(line) && NonEmpty(line)
  }

  /** The lines both filters keep, in order: `[x for x in dump if ":" not
      in x]` and then `[x for x in dump if len(x) > 0]`. */
  function KeptLines(lines: seq<string>): (r: seq<string>)
    ensures r == Filter(IsSymbolLine, lines)
  {
    FiltersCompose(lines);
    Filter(NonEmpty, Filter(HasNoColon, lines))
  }

  /** `split()[2]` of every kept line, with `prefix` removed once from the
      front of each. */
  function SymbolsOf(kept: seq<string>, prefix: string): (r: Result<seq<string>>)
    ensures r.Err? ==> r.error == MissingField(2)
    ensures r.Ok? ==> |r.value| == |kept|
    ensures r.Ok? ==> forall i :: 0 <= i < |r.value| ==> NoSpace(r.value[i])
  {
    var names :- FieldAt(kept, 2);
    Ok(RemovePrefixAll(names, prefix))
  }

  /** The symbols of an nm listing. */
  function Symbols(lines: seq<string>, prefix: string): Result<seq<string>> {
    SymbolsOf(KeptLines(lines), prefix)
  }

  /** What one line contributes on its own: nothing for an object-file or
      blank line, otherwise its third field without the prefix, or the
      IndexError when it has fewer than three fields. */
  function LineSymbols(line: string, prefix: string): Result<seq<string>> {
    if !IsSymbolLine(line) then Ok([])
    else if |Fields(line)| < 3 then Err(MissingField(2))
    else Ok([RemovePrefix(Fields(line)[2], prefix)])
  }

  /** The two filters in a row keep exactly the symbol lines. */
  lemma {:induction false} FiltersCompose(lines: seq<string>)
    ensures Filter(NonEmpty, Filter(HasNoColon, lines)) == Filter(IsSymbolLine, lines)
  {
    if lines != [] {
      FiltersCompose(lines[1..]);
    }
  }

  /** The listing is processed line by line: a listing that is two listings
      joined fails when either fails, and otherwise its symbols are theirs,
      in order. */
  lemma SymbolsAppend(a: seq<string>, b: seq<string>, prefix: string)
    ensures Symbols(a + b, prefix).Ok? <==> Symbols(a, prefix).Ok? && Symbols(b, prefix).Ok?
    ensures Symbols(a + b, prefix).Ok? ==>
      Symbols(a + b, prefix).value == Symbols(a, prefix).value + Symbols(b, prefix).value
  {
    FilterAppend(IsSymbolLine, a, b);
    var ka := KeptLines(a);
    var kb := KeptLines(b);
    assert KeptLines(a + b) == ka + kb;
    FieldAtAppendFails(ka, kb, 2);
    if FieldAt(ka, 2).Ok? && FieldAt(kb, 2).Ok? {
      FieldAtAppend(ka, kb, 2);
      RemovePrefixAllAppend(FieldAt(ka, 2).value, FieldAt(kb, 2).value, prefix);
    }
  }

  /** A single line yields what `LineSymbols` says. */
  lemma SymbolsOfLine(line: string, prefix: string)
    ensures Symbols([line], prefix) == LineSymbols(line, prefix)
  {
    assert [line][1..] == [];
    if IsSymbolLine(line) {
      assert KeptLines([line]) == [line];
      if |Fields(line)| >= 3 {
        var names := FieldAt([line], 2).value;
        assert names == [Fields(line)[2]];
        assert RemovePrefixAll(names, prefix) == [RemovePrefix(Fields(line)[2], prefix)];
      }
    } else {
      assert KeptLines([line]) == [];
    }
  }

  /** Object-file lines and blank lines are ignored wherever they occur. */
  lemma NoiseIgnored(a: seq<string>, line: string, b: seq<string>, prefix: string)
    requires NamesObject(line) || line == []
    ensures Symbols(a + [line] + b, prefix) == Symbols(a + b, prefix)
  {
    FilterSkip(IsSymbolLine, a, line, b);
  }

  /** A line of whitespace only has no third field: the listing fails,
      whatever surrounds that line. */
  lemma BlankLineFails(a: seq<string>, line: string, b: seq<string>, prefix: string)
    requires line != [] && AllSpace(line)
    ensures Symbols(a + [line] + b, prefix) == Err(MissingField(2))
  {
    FieldsEmptyIff(line);
    assert forall i :: 0 <= i < |line| ==> line[i] != ':';
    SymbolsOfLine(line, prefix);
    SymbolsAppend(a + [line], b, prefix);
    SymbolsAppend(a, [line], prefix);
  }

  /** A symbol line of address, type letter and name yields the name
      without the prefix. */
  lemma ThreeFieldLine(address: string, kind: string, name: string, prefix: string)
    requires address != [] && NoSpace(address) && ':' !in address
    requires kind != [] && NoSpace(kind) && ':' !in kind
    requires name != [] && NoSpace(name) && ':' !in name
    ensures Symbols([address + " " + kind + " " + name], prefix) == Ok([RemovePrefix(name, prefix)])
  {
    var ws := [address, kind, name];
    assert ws[1..] == [kind, name] && ws[1..][1..] == [name];
    FieldsOfJoin(ws);
    assert Join(" ", [name]) == name;
    assert Join(" ", [kind, name]) == kind + " " + name;
    assert Join(" ", ws) == address + " " + (kind + " " + name);
    assert Join(" ", ws) == address + " " + kind + " " + name;
    var line := address + " " + kind + " " + name;
    assert ':' !in line;
    SymbolsOfLine(line, prefix);
  }
}

=== FILE: order.dfy ===
/** Python's ordering of str values and `sorted(set(xs))`, which every output
    dialect of makedef.py applies to the extracted names. */
module Order {
  import opened Seqs

  /** Python's `a < b` on str: compare code point by code point; a proper
      prefix comes first. */
  predicate Less(a: string, b: string)
    decreases |a|
  {
    if a == [] then b != []
    else if b == [] then false
    else if a[0] != b[0] then a[0] < b[0]
    else Less(a[1..], b[1..])
  }

  lemma {:induction false} LessIrreflexive(a: string)
    ensures !Less(a, a)
  {
    if a != [] {
      LessIrreflexive(a[1..]);
    }
  }

  lemma {:induction false} LessTransitive(a: string, b: string, c: string)
    requires Less(a, b) && Less(b, c)
    ensures Less(a, c)
  {
    if a != [] && a[0] == b[0] && b[0] == c[0] {
      LessTransitive(a[1..], b[1..], c[1..]);
    }
  }

  lemma {:induction false} LessTotal(a: string, b: string)
    ensures a == b || Less(a, b) || Less(b, a)
  {
    if a != [] && b != [] && a[0] == b[0] {
      LessTotal(a[1..], b[1..]);
      if a[1..] == b[1..] {
        assert a == [a[0]] + a[1..] && b == [b[0]] + b[1..];
      }
    }
  }

  lemma {:induction false} LessAsymmetric(a: string, b: string)
    requires Less(a, b)
    ensures !Less(b, a)
  {
    if a != [] && a[0] == b[0] {
      LessAsymmetric(a[1..], b[1..]);
    }
  }

  /** A common leading text does not change how two strings compare; so
      indenting every name before sorting sorts them as the names would. */
  lemma {:induction false} LessAfterCommonPrefix(c: string, a: string, b: string)
    ensures Less(c + a, c + b) <==> Less(a, b)
  {
    if c != [] {
      assert (c + a)[1..] == c[1..] + a;
      assert (c + b)[1..] == c[1..] + b;
      LessAfterCommonPrefix(c[1..], a, b);
    } else {
      assert c + a == a && c + b == b;
    }
  }

  /** Every element comes strictly before every later one: sorted, and no
      element twice. */
  predicate StrictlySorted(xs: seq<string>) {
    forall i, j :: 0 <= i < j < |xs| ==> Less(xs[i], xs[j])
  }

  /** Two lists hold the same strings, however often and in whatever order. */
  ghost predicate SameElements(xs: seq<string>, ys: seq<string>) {
    forall x :: x in xs <==> x in ys
  }

  /** Places `x` in a strictly sorted list unless it is already there. */
  function Insert(x: string, s: seq<string>): (r: seq<string>)
    requires StrictlySorted(s)
    ensures StrictlySorted(r)
    ensures forall y :: y in r <==> y == x || y in s
  {
    if s == [] then [x]
    else if x == s[0] then s
    else if Less(x, s[0]) then
      assert StrictlySorted([x] + s) by {
        forall j | 0 < j < |s| ensures Less(x, s[j]) {
          LessTransitive(x, s[0], s[j]);
        }
      }
      [x] + s
    else
      var rest := Insert(x, s[1..]);
      LessTotal(x, s[0]);
      assert forall y :: y in s <==> y == s[0] || y in s[1..];
      assert StrictlySorted([s[0]] + rest) by {
        forall j | 0 <= j < |rest| ensures Less(s[0], rest[j]) {
          if rest[j] != x {
            assert rest[j] in s[1..];
            var k :| 0 <= k < |s[1..]| && s[1..][k] == rest[j];
            assert s[k + 1] == rest[j];
          }
        }
      }
      [s[0]] + rest
  }

  /** Python's `sorted(set(xs))`: each distinct string of `xs` exactly once,
      in increasing order. */
  function SortedDistinct(xs: seq<string>): (r: seq<string>)
    ensures StrictlySorted(r)
    ensures SameElements(r, xs)
  {
    if xs == [] then []
    else
      var init := xs[..|xs| - 1];
      assert xs == init + [xs[|xs| - 1]];
      Insert(xs[|xs| - 1], SortedDistinct(init))
  }

  /** A strictly sorted list is determined by which strings it holds. */
  lemma {:induction false} StrictlySortedUnique(a: seq<string>, b: seq<string>)
    requires StrictlySorted(a) && StrictlySorted(b) && SameElements(a, b)
    ensures a == b
  {
    SameElementsEmpty(a, b);
    if a != [] {
      if a[0] != b[0] {
        assert a[0] in b;
        var j :| 0 <= j < |b| && b[j] == a[0];
        assert b[0] in a;
        var i :| 0 <= i < |a| && a[i] == b[0];
        assert Less(a[0], b[0]);
        LessAsymmetric(a[0], b[0]);
        assert false;
      }
      forall x ensures x in a[1..] <==> x in b[1..] {
        SameElementsTail(a, b, x);
      }
      StrictlySortedUnique(a[1..], b[1..]);
      assert a == [a[0]] + a[1..] && b == [b[0]] + b[1..];
    }
  }

  lemma SameElementsEmpty(a: seq<string>, b: seq<string>)
    requires SameElements(a, b)
    ensures a == [] <==> b == []
  {
    if a != [] {
      assert a[0] in b;
    }
    if b != [] {
      assert b[0] in a;
    }
  }

  lemma SameElementsTail(a: seq<string>, b: seq<string>, x: string)
    requires StrictlySorted(a) && StrictlySorted(b) && SameElements(a, b)
    requires a != [] && b != [] && a[0] == b[0]
    ensures x in a[1..] <==> x in b[1..]
  {
    LessIrreflexive(a[0]);
    if x in a[1..] {
      var i :| 0 <= i < |a[1..]| && a[1..][i] == x;
      assert Less(a[0], a[i + 1]);
      assert x in b;
      assert x != b[0];
      var j :| 0 <= j < |b| && b[j] == x;
      assert b[1..][j - 1] == x;
    }
    if x in b[1..] {
      var j :| 0 <= j < |b[1..]| && b[1..][j] == x;
      assert Less(b[0], b[j + 1]);
      assert x in a;
      var i :| 0 <= i < |a| && a[i] == x;
      assert a[1..][i - 1] == x;
    }
  }

  /** The sorted distinct list depends only on which strings occur: it is
      unchanged by reordering the input or repeating entries. */
  lemma SortedDistinctCanonical(xs: seq<string>, ys: seq<string>)
    requires SameElements(xs, ys)
    ensures SortedDistinct(xs) == SortedDistinct(ys)
  {
    StrictlySortedUnique(SortedDistinct(xs), SortedDistinct(ys));
  }

  /** A strictly sorted list is its own sorted distinct list. */
  lemma SortedDistinctFixes(xs: seq<string>)
    requires StrictlySorted(xs)
    ensures SortedDistinct(xs) == xs
  {
    StrictlySortedUnique(SortedDistinct(xs), xs);
  }

  /** Every string prefixed with `pre`, as `[f'{pre}{i}' for i in xs]`. */
  function Indented(pre: string, xs: seq<string>): seq<string> {
    Map(x => pre + x, xs)
  }

  /** Sorting the indented names lists the sorted names, each indented. */
  lemma SortedDistinctIndented(pre: string, xs: seq<string>)
    ensures SortedDistinct(Indented(pre, xs)) == Indented(pre, SortedDistinct(xs))
  {
    var s := SortedDistinct(xs);
    var t := Indented(pre, s);
    forall i, j | 0 <= i < j < |t| ensures Less(t[i], t[j]) {
      LessAfterCommonPrefix(pre, s[i], s[j]);
    }
    forall y ensures y in t <==> y in Indented(pre, xs) {
      if y in t {
        var i :| 0 <= i < |t| && t[i] == y;
        assert s[i] in xs;
        var j :| 0 <= j < |xs| && xs[j] == s[i];
        assert Indented(pre, xs)[j] == y;
      }
      if y in Indented(pre, xs) {
        var j :| 0 <= j < |xs| && Indented(pre, xs)[j] == y;
        assert xs[j] in s;
        var i :| 0 <= i < |s| && s[i] == xs[j];
        assert t[i] == y;
      }
    }
    StrictlySortedUnique(SortedDistinct(Indented(pre, xs)), t);
  }
}

=== FILE: results.dfy ===
/** Failure-compatible values for the two ways makedef.py can stop: a marker
    of the dumpbin listing that never appeared, or a symbol line with too few
    fields. */
module Results {

  /** Why extraction stopped. `MissingStart` and `MissingEnd` stand for the
      NameError Python raises when `start` or `end` was never bound by the
      marker loop; `MissingField(k)` for the IndexError of `split()[k]`. */
  datatype ParseError = MissingStart | MissingEnd | MissingField(index: nat)

  datatype Option<+T> = None | Some(value: T)

  datatype Result<+T> = Ok(value: T) | Err(error: ParseError) {

    predicate IsFailure() {
      Err?
    }

    function PropagateFailure<U>(): Result<U>
      requires Err?
    {
      Err(error)
    }

    function Extract(): T
      requires Ok?
    {
      value
    }
  }
}

=== FILE: seqs.dfy ===
/** Generic list operations that makedef.py writes as list comprehensions. */
module Seqs {
  import opened Results

  /** `[x for x in xs if keep(x)]`. */
  function Filter<T(!new)>(keep: T -> bool, xs: seq<T>): (r: seq<T>)
    ensures |r| <= |xs|
    ensures forall x :: x in r <==> x in xs && keep(x)
    ensures forall i :: 0 <= i < |r| ==> keep(r[i])
  {
    if xs == [] then []
    else
      var rest := Filter(keep, xs[1..]);
      assert forall x :: x in xs <==> x == xs[0] || x in xs[1..];
      if keep(xs[0]) then [xs[0]] + rest else rest
  }

  /** Filtering keeps the relative order of what it keeps: it distributes
      over concatenation. */
  lemma {:induction false} FilterAppend<T(!new)>(keep: T -> bool, a: seq<T>, b: seq<T>)
    ensures Filter(keep, a + b) == Filter(keep, a) + Filter(keep, b)
  {
    if a == [] {
      assert a + b == b;
    } else {
      assert (a + b)[1..] == a[1..] + b;
      FilterAppend(keep, a[1..], b);
    }
  }

  /** A one-element list is kept or dropped whole. */
  lemma FilterSingle<T(!new)>(keep: T -> bool, x: T)
    ensures Filter(keep, [x]) == if keep(x) then [x] else []
  {
    assert [x][1..] == [];
  }

  /** Filtering ignores an element it does not keep, wherever it is. */
  lemma FilterSkip<T(!new)>(keep: T -> bool, a: seq<T>, x: T, b: seq<T>)
    requires !keep(x)
    ensures Filter(keep, a + [x] + b) == Filter(keep, a + b)
  {
    FilterSingle(keep, x);
    FilterAppend(keep, a, [x]);
    FilterAppend(keep, a + [x], b);
    FilterAppend(keep, a, b);
    assert Filter(keep, a) + [] == Filter(keep, a);
  }

  /** Joining after a first element is putting that element in front of
      the joined rest. */
  lemma ConsAppend<T>(a: seq<T>, b: seq<T>)
    requires a != []
    ensures a + b == [a[0]] + (a[1..] + b)
  {
    assert a == [a[0]] + a[1..];
  }

  /** Concatenation is associative. */
  lemma AppendAssoc<T>(x: seq<T>, y: seq<T>, z: seq<T>)
    ensures x + (y + z) == (x + y) + z
  {
  }

  /** Empty lists on either side add nothing. */
  lemma AppendEmpty<T>(x: seq<T>)
    ensures [] + x + [] == x
  {
  }

  /** `[f(x) for x in xs]`. */
  function Map<T, U>(f: T -> U, xs: seq<T>): (r: seq<U>)
    ensures |r| == |xs|
    ensures forall i :: 0 <= i < |xs| ==> r[i] == f(xs[i])
  {
    seq(|xs|, i requires 0 <= i < |xs| => f(xs[i]))
  }

  lemma MapAppend<T, U>(f: T -> U, a: seq<T>, b: seq<T>)
    ensures Map(f, a + b) == Map(f, a) + Map(f, b)
  {
    assert forall i :: 0 <= i < |b| ==> (a + b)[|a| + i] == b[i];
  }

  /** Filtering commutes with a map that never changes the test's
      answer. */
  lemma {:induction false} FilterMap<T(!new)>(keep: T -> bool, f: T -> T, xs: seq<T>)
    requires forall x :: keep(f(x)) <==> keep(x)
    ensures Filter(keep, Map(f, xs)) == Map(f, Filter(keep, xs))
  {
    if xs != [] {
      var ys := Map(f, xs);
      assert ys[0] == f(xs[0]);
      assert ys[1..] == Map(f, xs[1..]);
      FilterMap(keep, f, xs[1..]);
      if keep(xs[0]) {
        assert Map(f, [xs[0]] + Filter(keep, xs[1..])) == [f(xs[0])] + Map(f, Filter(keep, xs[1..]));
      }
    }
  }

  /** The index of the last element satisfying `p`, as a loop that
      overwrites its answer on every hit computes it. */
  function LastIndexWhere<T>(p: T -> bool, xs: seq<T>): (r: Option<nat>)
    ensures r.None? <==> forall i :: 0 <= i < |xs| ==> !p(xs[i])
    ensures r.Some? ==> r.value < |xs| && p(xs[r.value])
    ensures r.Some? ==> forall j :: r.value < j < |xs| ==> !p(xs[j])
  {
    if xs == [] then None
    else if p(xs[|xs| - 1]) then Some(|xs| - 1)
    else LastIndexWhere(p, xs[..|xs| - 1])
  }
}

=== FILE: subst.dfy ===
/** The two regular-expression substitutions of the dumpbin path of
    makedef.py: `re.sub(r'\s+' + prefix, ' ', line)` for a prefix matched
    literally, and `re.sub(r'\s+', ' ', line)`, which is the same
    substitution with an empty prefix. */
module Subst {
  import opened Text

  /** The greedy-with-backtracking choice of `\s+` at a whitespace run of
      length `k`: the longest run length `j` in 1..k after which `p`
      follows, or 0 when there is none. */
  function LongestMatch(s: string, p: string, k: nat): (j: nat)
    requires k <= |s|
    ensures j <= k
    ensures j > 0 ==> StartsWith(s[j..], p)
    ensures forall i {:trigger StartsWith(s[i..], p)} :: j < i <= k ==> !StartsWith(s[i..], p)
  {
    if k == 0 then 0
    else if StartsWith(s[k..], p) then k
    else LongestMatch(s, p, k - 1)
  }

  /** One step of the scan: the text it emits and how much input it
      consumes. */
  datatype Chunk = Chunk(out: string, used: nat)

  /** One step of `re.sub(r'\s+' + p, ' ', s)` on a non-empty `s`. A match
      can only begin at whitespace, so a leading word is copied whole. At a
      whitespace run the longest match is replaced by one space; when there
      is none, the match fails at every later position of the run as well,
      so the run is copied. */
  function Step(s: string, p: string): (c: Chunk)
    requires s != []
    ensures 0 < c.used <= |s|
  {
    if !IsSpace(s[0]) then Chunk(s[..WordRun(s)], WordRun(s))
    else
      var n := SpaceRun(s);
      var j := LongestMatch(s, p, n);
      if j > 0 then Chunk(" ", j + |p|) else Chunk(s[..n], n)
  }

  /** `re.sub(r'\s+' + p, ' ', s)` for a literal `p`: the steps of the scan,
      each resuming where the last one stopped. */
  function Substitute(s: string, p: string): string
    decreases |s|
  {
    if s == [] then []
    else
      var c := Step(s, p);
      c.out + Substitute(s[c.used..], p)
  }

  /** The substitution never empties a line, and a line that starts with
      whitespace still does afterwards (with a single space, if the run was
      replaced). */
  lemma {:induction false} SubstituteKeepsLead(s: string, p: string)
    ensures s != [] ==> Substitute(s, p) != []
    ensures SpaceLed(s) ==> SpaceLed(Substitute(s, p))
  {
  }

  /** `re.sub(r'\s+', ' ', s)`. */
  function Collapse(s: string): string {
    Substitute(s, "")
  }

  /** When `p` holds no whitespace, `\s+` can only stop at the end of the
      run: the match is the whole run or nothing. */
  lemma {:induction false} RunMatch(s: string, p: string)
    requires NoSpace(p) && s != [] && IsSpace(s[0])
    ensures LongestMatch(s, p, SpaceRun(s)) == (if StartsWith(s[SpaceRun(s)..], p) then SpaceRun(s) else 0)
  {
    var n := SpaceRun(s);
    if p != [] {
      forall i | 0 < i < n ensures !StartsWith(s[i..], p) {
        assert IsSpace(s[..n][i]);
        assert s[i..][0] == s[i];
      }
    }
  }

  /** One leading copy of `p` removed from each word; words left empty
      vanish. */
  function StripAll(ws: seq<string>, p: string): (r: seq<string>)
    ensures |r| <= |ws|
  {
    if ws == [] then []
    else
      var w := RemovePrefix(ws[0], p);
      (if w == [] then [] else [w]) + StripAll(ws[1..], p)
  }

  /** The fields of `s` after the prefix has been taken off every field that
      whitespace precedes: all of them, except a first field the line
      begins with. */
  function StrippedFields(s: string, p: string): seq<string> {
    var fs := Fields(s);
    if s != [] && !IsSpace(s[0]) then [fs[0]] + StripAll(fs[1..], p)
    else StripAll(fs, p)
  }

  /** With an empty prefix nothing is stripped. */
  lemma {:induction false} StripAllEmpty(ws: seq<string>)
    requires forall i :: 0 <= i < |ws| ==> ws[i] != []
    ensures StripAll(ws, "") == ws
  {
    if ws != [] {
      StripAllEmpty(ws[1..]);
    }
  }

  lemma {:induction false} SubstituteWord(s: string, p: string)
    requires s != [] && !IsSpace(s[0])
    ensures WordRun(s) > 0 && SpaceLed(s[WordRun(s)..])
    ensures Fields(Substitute(s, p)) == [s[..WordRun(s)]] + Fields(Substitute(s[WordRun(s)..], p))
  {
    var m := WordRun(s);
    SubstituteKeepsLead(s[m..], p);
    FieldsAfterWord(s[..m], Substitute(s[m..], p));
  }

  /** A line of whitespace only stays whitespace only, whatever `p` holds:
      each step either copies the run or replaces part of it, with the
      prefix behind it, by one space, and leaves whitespace behind. */
  lemma {:induction false} SubstituteKeepsAllSpace(s: string, p: string)
    requires AllSpace(s)
    ensures AllSpace(Substitute(s, p))
    decreases |s|
  {
    if s != [] {
      var n := SpaceRun(s);
      assert n == |s|;
      assert s[..n] == s;
      var c := Step(s, p);
      assert AllSpace(c.out);
      SubstituteUnfold(s, p);
      AllSpaceSuffix(s, c.used);
      SubstituteKeepsAllSpace(s[c.used..], p);
      AllSpaceConcat(c.out, Substitute(s[c.used..], p));
    }
  }

  /** A line of whitespace only yields no field, substituted or not. */
  lemma {:induction false} SubstituteAllSpace(s: string, p: string)
    requires s != [] && IsSpace(s[0]) && SpaceRun(s) == |s|
    ensures Fields(Substitute(s, p)) == StripAll(Fields(s), p) == []
  {
    assert s[..|s|] == s;
    FieldsEmptyIff(s);
    SubstituteKeepsAllSpace(s, p);
    FieldsEmptyIff(Substitute(s, p));
  }

  /** A line that opens with whitespace has as fields the word after that
      whitespace and the fields of what follows the word. */
  lemma {:induction false} FieldsOfRunThenWord(s: string)
    requires s != [] && IsSpace(s[0]) && SpaceRun(s) < |s|
    ensures var t := s[SpaceRun(s)..];
      WordRun(t) > 0 && SpaceLed(t[WordRun(t)..]) &&
      Fields(s) == [t[..WordRun(t)]] + Fields(t[WordRun(t)..])
  {
    FieldsOfRunThen(s, SpaceRun(s), s[SpaceRun(s)..]);
  }

  /** `FieldsOfRunThenWord` with the run length and the rest named. */
  lemma {:induction false} FieldsOfRunThen(s: string, n: nat, t: string)
    requires n == SpaceRun(s) && n < |s| && t == s[n..]
    ensures WordRun(t) > 0 && SpaceLed(t[WordRun(t)..])
    ensures Fields(s) == [t[..WordRun(t)]] + Fields(t[WordRun(t)..])
  {
    FieldsAfterSpace(s[..n], t);
    assert s == s[..n] + t;
  }

  /** The part of a word left after its prefix, followed by whitespace or
      nothing, contributes itself as a field unless it is empty. */
  lemma {:induction false} FieldsOfWordTail(w': string, rest: string, p: string)
    requires NoSpace(w') && SpaceLed(rest)
    ensures Fields(" " + Substitute(w' + rest, p)) ==
      (if w' == [] then [] else [w']) + Fields(Substitute(rest, p))
  {
    FieldsAfterSpace(" ", Substitute(w' + rest, p));
    if w' != [] {
      WordRunOf(w', rest);
      assert (w' + rest)[..|w'|] == w';
      assert (w' + rest)[|w'|..] == rest;
      SubstituteWord(w' + rest, p);
    } else {
      assert w' + rest == rest;
    }
  }

  /** At a whitespace run whose end is followed by `p` the longest match is
      the whole run, whatever `p` holds: run and prefix become one space. */
  lemma {:induction false} SubstituteAtMatch(s: string, p: string)
    requires s != [] && IsSpace(s[0]) && StartsWith(s[SpaceRun(s)..], p)
    ensures SpaceRun(s) + |p| <= |s|
    ensures Substitute(s, p) == " " + Substitute(s[SpaceRun(s) + |p|..], p)
  {
    SubstituteAtRun(s, p, SpaceRun(s));
  }

  /** `SubstituteAtMatch` with the run length named `n`. */
  lemma {:induction false} SubstituteAtRun(s: string, p: string, n: nat)
    requires s != [] && IsSpace(s[0]) && n == SpaceRun(s) && StartsWith(s[n..], p)
    ensures n + |p| <= |s|
    ensures Substitute(s, p) == " " + Substitute(s[n + |p|..], p)
  {
    StepAtMatch(s, p, n);
    SubstituteUnfold(s, p);
  }

  /** The step taken at such a run. */
  lemma {:induction false} StepAtMatch(s: string, p: string, n: nat)
    requires s != [] && IsSpace(s[0]) && n == SpaceRun(s) && StartsWith(s[n..], p)
    ensures n + |p| <= |s|
    ensures Step(s, p) == Chunk(" ", n + |p|)
  {
    assert s[..n][0] == s[0];
    assert LongestMatch(s, p, n) == n;
  }

  /** One step of the scan, then the scan of what it left. */
  lemma {:induction false} SubstituteUnfold(s: string, p: string)
    requires s != []
    ensures Substitute(s, p) == Step(s, p).out + Substitute(s[Step(s, p).used..], p)
  {
  }

  /** How a line splits at a whitespace run whose word begins with `p`. */
  lemma {:induction false} MatchedRunShape(s: string, p: string)
    requires NoSpace(p) && s != [] && IsSpace(s[0]) && SpaceRun(s) < |s|
    requires StartsWith(s[SpaceRun(s)..], p)
    ensures var t := s[SpaceRun(s)..]; var w := t[..WordRun(t)]; var rest := t[WordRun(t)..];
      && |p| <= |w| && SpaceLed(rest) && |rest| < |s|
      && s[SpaceRun(s) + |p|..] == w[|p|..] + rest
      && RemovePrefix(w, p) == w[|p|..] && NoSpace(w[|p|..])
      && Fields(s) == [w] + Fields(rest)
  {
    var n := SpaceRun(s);
    var t := s[n..];
    var w := t[..WordRun(t)];
    var rest := t[WordRun(t)..];
    PrefixWithinWord(t, p);
    assert t == w + rest;
    assert t[|p|..] == w[|p|..] + rest;
    assert w[..|p|] == t[..|p|];
    assert s[n + |p|..] == t[|p|..];
    NoSpaceSuffix(w, |p|);
    FieldsOfRunThen(s, n, t);
  }

  /** At a matched run, the fields after substitution are those of the
      substituted remainder behind the prefix. */
  lemma {:induction false} FieldsAtMatch(s: string, p: string)
    requires s != [] && IsSpace(s[0]) && StartsWith(s[SpaceRun(s)..], p)
    ensures SpaceRun(s) + |p| <= |s|
    ensures Fields(Substitute(s, p)) == Fields(Substitute(s[SpaceRun(s) + |p|..], p))
  {
    SubstituteAtMatch(s, p);
    var y := Substitute(s[SpaceRun(s) + |p|..], p);
    FieldsAfterSpace(" ", y);
  }

  /** A whitespace run followed by a word that begins with `p`: the run and
      the prefix become one space, and the rest of the word, if any, is the
      next field. */
  lemma {:induction false} SubstituteMatchedRun(s: string, p: string)
    requires NoSpace(p) && s != [] && IsSpace(s[0]) && SpaceRun(s) < |s|
    requires StartsWith(s[SpaceRun(s)..], p)
    ensures var t := s[SpaceRun(s)..]; var w := t[..WordRun(t)]; var rest := t[WordRun(t)..];
      var kept := if RemovePrefix(w, p) == [] then [] else [RemovePrefix(w, p)];
      && SpaceLed(rest) && |rest| < |s|
      && Fields(Substitute(s, p)) == kept + Fields(Substitute(rest, p))
      && StripAll(Fields(s), p) == kept + StripAll(Fields(rest), p)
  {
    var t := s[SpaceRun(s)..];
    var w := t[..WordRun(t)];
    var rest := t[WordRun(t)..];
    MatchedRunShape(s, p);
    FieldsAtMatch(s, p);
    FieldsOfWordTail(w[|p|..], rest, p);
    var fs := Fields(s);
    assert fs[1..] == Fields(rest);
  }

  lemma {:induction false} SubstituteAtNoMatch(s: string, p: string)
    requires NoSpace(p) && s != [] && IsSpace(s[0]) && !StartsWith(s[SpaceRun(s)..], p)
    ensures Substitute(s, p) == s[..SpaceRun(s)] + Substitute(s[SpaceRun(s)..], p)
  {
    RunMatch(s, p);
    var c := Step(s, p);
    assert c.out == s[..SpaceRun(s)] && c.used == SpaceRun(s);
    assert Substitute(s, p) == c.out + Substitute(s[c.used..], p);
  }

  /** A whitespace run followed by a word that does not begin with `p`:
      both are copied. */
  lemma {:induction false} SubstituteUnmatchedRun(s: string, p: string)
    requires NoSpace(p) && s != [] && IsSpace(s[0]) && SpaceRun(s) < |s|
    requires !StartsWith(s[SpaceRun(s)..], p)
    ensures var t := s[SpaceRun(s)..]; var w := t[..WordRun(t)]; var rest := t[WordRun(t)..];
      && SpaceLed(rest) && |rest| < |s|
      && Fields(Substitute(s, p)) == [w] + Fields(Substitute(rest, p))
      && StripAll(Fields(s), p) == [w] + StripAll(Fields(rest), p)
  {
    var n := SpaceRun(s);
    var t := s[n..];
    var m := WordRun(t);
    var w := t[..m];
    SubstituteAtNoMatch(s, p);
    FieldsOfRunThenWord(s);
    assert !StartsWith(w, p) by {
      if |p| <= |w| {
        assert t[..|p|] == w[..|p|];
      }
    }
    assert RemovePrefix(w, p) == w;
    SubstituteWord(t, p);
    var y := Substitute(t, p);
    FieldsAfterSpace(s[..n], y);
  }

  /** On a line that is empty or starts with whitespace, every field loses
      its leading prefix. */
  lemma {:induction false} SubstituteSpaceLed(s: string, p: string)
    requires NoSpace(p) && SpaceLed(s)
    ensures Fields(Substitute(s, p)) == StripAll(Fields(s), p)
    decreases |s|
  {
    if s != [] {
      var n := SpaceRun(s);
      if n == |s| {
        SubstituteAllSpace(s, p);
      } else {
        var t := s[n..];
        var rest := t[WordRun(t)..];
        if StartsWith(t, p) {
          SubstituteMatchedRun(s, p);
        } else {
          SubstituteUnmatchedRun(s, p);
        }
        SubstituteSpaceLed(rest, p);
      }
    }
  }

  /** A prefix without whitespace that starts a word-led text lies within
      the word. */
  lemma {:induction false} PrefixWithinWord(t: string, p: string)
    requires NoSpace(p) && StartsWith(t, p)
    ensures |p| <= WordRun(t)
  {
    var m := WordRun(t);
    forall i | 0 <= i < |p| ensures !IsSpace(t[i]) {
      assert t[..|p|][i] == t[i];
    }
  }

  lemma {:induction false} NoSpaceSuffix(w: string, k: nat)
    requires NoSpace(w) && k <= |w|
    ensures NoSpace(w[k..])
  {
    forall i | 0 <= i < |w[k..]| ensures !IsSpace(w[k..][i]) {
      assert w[k..][i] == w[k + i];
    }
  }

  /** The fields left by the prefix substitution are the fields of the line
      with the prefix stripped from each one that whitespace precedes. */
  lemma {:induction false} SubstituteFields(s: string, p: string)
    requires NoSpace(p)
    ensures Fields(Substitute(s, p)) == StrippedFields(s, p)
  {
    if s != [] && !IsSpace(s[0]) {
      var m := WordRun(s);
      var w := s[..m];
      var rest := s[m..];
      assert s == w + rest;
      FieldsAfterWord(w, rest);
      var fs := Fields(s);
      assert fs[0] == w && fs[1..] == Fields(rest);
      SubstituteWord(s, p);
      SubstituteSpaceLed(rest, p);
    } else {
      SubstituteSpaceLed(s, p);
    }
  }

  /** Collapsing whitespace runs leaves the fields of a line as they were. */
  lemma {:induction false} CollapseFields(s: string)
    ensures Fields(Collapse(s)) == Fields(s)
  {
    SubstituteFields(s, "");
    var fs := Fields(s);
    StripAllEmpty(fs);
    if s != [] && !IsSpace(s[0]) {
      StripAllEmpty(fs[1..]);
      assert fs == [fs[0]] + fs[1..];
    }
  }

  /** Every whitespace character is a single space with no whitespace after
      it. */
  predicate SingleSpaced(r: string) {
    forall i :: 0 <= i < |r| && IsSpace(r[i]) ==> r[i] == ' ' && (i + 1 == |r| || !IsSpace(r[i + 1]))
  }

  /** A word in front keeps a text single-spaced. */
  lemma SingleSpacedAfterWord(w: string, t: string)
    requires NoSpace(w) && SingleSpaced(t)
    ensures SingleSpaced(w + t)
  {
    var r := w + t;
    forall i | 0 <= i < |w| ensures !IsSpace(r[i]) {
      assert r[i] == w[i];
    }
    forall i | |w| <= i < |r| && IsSpace(r[i])
      ensures r[i] == ' ' && (i + 1 == |r| || !IsSpace(r[i + 1]))
    {
      assert r[i] == t[i - |w|];
      if i + 1 < |r| {
        assert r[i + 1] == t[i + 1 - |w|];
      }
    }
  }

  /** One space in front of a text that does not start with whitespace
      keeps it single-spaced. */
  lemma SingleSpacedAfterSpace(t: string)
    requires SingleSpaced(t) && (t == [] || !IsSpace(t[0]))
    ensures SingleSpaced(" " + t)
  {
    var r := " " + t;
    forall i | 0 < i < |r| && IsSpace(r[i])
      ensures r[i] == ' ' && (i + 1 == |r| || !IsSpace(r[i + 1]))
    {
      assert r[i] == t[i - 1];
      if i + 1 < |r| {
        assert r[i + 1] == t[i];
      }
    }
  }

  /** The collapsed text has no whitespace but single spaces. */
  lemma {:induction false} CollapseSingleSpaces(s: string)
    ensures SingleSpaced(Collapse(s))
    decreases |s|
  {
    if s != [] {
      if !IsSpace(s[0]) {
        var m := WordRun(s);
        CollapseSingleSpaces(s[m..]);
        assert Collapse(s) == s[..m] + Collapse(s[m..]);
        SingleSpacedAfterWord(s[..m], Collapse(s[m..]));
      } else {
        var n := SpaceRun(s);
        assert StartsWith(s[n..], "");
        assert LongestMatch(s, "", n) == n;
        CollapseSingleSpaces(s[n..]);
        var rest := Collapse(s[n..]);
        assert Collapse(s) == " " + rest;
        assert rest == [] || !IsSpace(rest[0]) by {
          if s[n..] != [] {
            assert !IsSpace(s[n..][0]);
            var m := WordRun(s[n..]);
            assert m > 0;
            assert rest[0] == s[n..][..m][0];
          }
        }
        SingleSpacedAfterSpace(rest);
      }
    }
  }
}

=== FILE: text.dfy ===
/** The string primitives makedef.py leans on: Python's notion of whitespace,
    `str.startswith`, the script's own `removeprefix`, substring search,
    `str.split()` with no argument, `str.join`, and the line structure of
    what `print` writes. Strings are sequences of code points. */
module Text {
  import opened Seqs

  /** Python's `str.isspace()`, which is also what the `\s` class of `re`
      matches in a str pattern: exactly these 29 code points. */
  predicate IsSpace(c: char) {
    || ('\t' <= c <= '\r')
    || ('\U{1C}' <= c <= ' ')
    || c == '\U{85}' || c == '\U{A0}' || c == '\U{1680}'
    || ('\U{2000}' <= c <= '\U{200A}')
    || c == '\U{2028}' || c == '\U{2029}' || c == '\U{202F}'
    || c == '\U{205F}' || c == '\U{3000}'
  }

  predicate NoSpace(s: string) {
    forall i :: 0 <= i < |s| ==> !IsSpace(s[i])
  }

  predicate AllSpace(s: string) {
    forall i :: 0 <= i < |s| ==> IsSpace(s[i])
  }

  /** Whitespace put after whitespace is whitespace. */
  lemma AllSpaceConcat(a: string, b: string)
    requires AllSpace(a) && AllSpace(b)
    ensures AllSpace(a + b)
  {
    forall i | 0 <= i < |a + b| ensures IsSpace((a + b)[i]) {
      if i >= |a| {
        assert (a + b)[i] == b[i - |a|];
      }
    }
  }

  /** What follows whitespace within whitespace is whitespace. */
  lemma AllSpaceSuffix(s: string, k: nat)
    requires AllSpace(s) && k <= |s|
    ensures AllSpace(s[k..])
  {
    forall i | 0 <= i < |s[k..]| ensures IsSpace(s[k..][i]) {
      assert s[k..][i] == s[k + i];
    }
  }

  /** Two words without whitespace make one when put together. */
  lemma NoSpaceConcat(a: string, b: string)
    requires NoSpace(a) && NoSpace(b)
    ensures NoSpace(a + b)
  {
    forall i | 0 <= i < |a + b| ensures !IsSpace((a + b)[i]) {
      if i >= |a| {
        assert (a + b)[i] == b[i - |a|];
      }
    }
  }

  /** `len(s) > 0`, the test both extraction paths filter blank lines with. */
  predicate NonEmpty(s: string) {
    |s| > 0
  }

  /** Empty, or beginning with whitespace: a field that ends right before
      such a string cannot run on into it. */
  predicate SpaceLed(s: string) {
    s == [] || IsSpace(s[0])
  }

  /** `s.startswith(p)`. */
  predicate StartsWith(s: string, p: string) {
    |p| <= |s| && s[..|p|] == p
  }

  /** The script's `removeprefix(s, p)` (packaging/makedef.py:39-43): one
      leading copy of `p` is removed when present, and nothing else
      changes. */
  function RemovePrefix(s: string, p: string): (r: string)
    ensures StartsWith(s, p) ==> p + r == s
    ensures !StartsWith(s, p) ==> r == s
    ensures p == [] ==> r == s
    ensures |r| <= |s| && s[|s| - |r|..] == r
    ensures NoSpace(s) ==> NoSpace(r)
  {
    if StartsWith(s, p) then s[|p|..] else s
  }

  /** `[removeprefix(x, p) for x in xs]`. */
  function RemovePrefixAll(xs: seq<string>, p: string): (r: seq<string>)
    ensures |r| == |xs|
    ensures forall i :: 0 <= i < |xs| ==> r[i] == RemovePrefix(xs[i], p)
  {
    Map(x => RemovePrefix(x, p), xs)
  }

  lemma RemovePrefixAllAppend(a: seq<string>, b: seq<string>, p: string)
    ensures RemovePrefixAll(a + b, p) == RemovePrefixAll(a, p) + RemovePrefixAll(b, p)
  {
    MapAppend(x => RemovePrefix(x, p), a, b);
  }

  /** Removing a prefix undoes prepending it. */
  lemma RemovePrefixCancels(p: string, t: string)
    ensures RemovePrefix(p + t, p) == t
  {
    assert (p + t)[..|p|] == p;
  }

  /** Removal is not idempotent: a name that starts with the prefix twice
      keeps the second copy after one pass and loses it after another. */
  lemma RemovePrefixNotIdempotent()
    ensures RemovePrefix("aab", "a") == "ab"
    ensures RemovePrefix(RemovePrefix("aab", "a"), "a") == "b"
  {
    assert "aab"[..1] == "a";
    assert "ab"[..1] == "a";
  }

  /** Python's `t in s` for strings: `t` occurs in `s` at some position. */
  predicate Contains(s: string, t: string)
    decreases |s|
  {
    StartsWith(s, t) || (s != [] && Contains(s[1..], t))
  }

  /** `t` occurs in `s` starting at position `i`. */
  predicate OccursAt(s: string, t: string, i: int) {
    0 <= i <= |s| - |t| && s[i..i + |t|] == t
  }

  /** `Contains` finds exactly the occurrences at explicit positions. */
  lemma {:induction false} ContainsIff(s: string, t: string)
    ensures Contains(s, t) <==> exists i :: OccursAt(s, t, i)
    decreases |s|
  {
    if StartsWith(s, t) {
      assert OccursAt(s, t, 0);
    } else if s == [] {
    } else {
      ContainsIff(s[1..], t);
      if Contains(s[1..], t) {
        var i :| OccursAt(s[1..], t, i);
        assert s[i + 1..i + 1 + |t|] == s[1..][i..i + |t|];
        assert OccursAt(s, t, i + 1);
      }
      if exists i :: OccursAt(s, t, i) {
        var i :| OccursAt(s, t, i);
        if i == 0 {
          assert false;
        }
        assert s[1..][i - 1..i - 1 + |t|] == s[i..i + |t|];
        assert OccursAt(s[1..], t, i - 1);
      }
    }
  }

  /** Length of the leading run of whitespace. */
  function SpaceRun(s: string): (n: nat)
    ensures n <= |s| && AllSpace(s[..n])
    ensures n < |s| ==> !IsSpace(s[n])
  {
    if s == [] || !IsSpace(s[0]) then 0 else 1 + SpaceRun(s[1..])
  }

  /** Length of the leading run of non-whitespace. */
  function WordRun(s: string): (n: nat)
    ensures n <= |s| && NoSpace(s[..n])
    ensures n < |s| ==> IsSpace(s[n])
  {
    if s == [] || IsSpace(s[0]) then 0 else 1 + WordRun(s[1..])
  }

  /** A leading word followed by whitespace or nothing is exactly the
      leading run of non-whitespace. */
  lemma {:induction false} WordRunOf(w: string, t: string)
    requires NoSpace(w) && SpaceLed(t)
    ensures WordRun(w + t) == |w|
  {
    if w != [] {
      assert (w + t)[1..] == w[1..] + t;
      WordRunOf(w[1..], t);
    }
  }

  /** Python's `s.split()`: the maximal runs of non-whitespace, in order. */
  function Fields(s: string): (r: seq<string>)
    ensures forall i :: 0 <= i < |r| ==> r[i] != [] && NoSpace(r[i])
    ensures s != [] && !IsSpace(s[0]) ==> |r| > 0
    decreases |s|
  {
    if s == [] then []
    else if IsSpace(s[0]) then Fields(s[1..])
    else
      var m := WordRun(s);
      [s[..m]] + Fields(s[m..])
  }

  /** Whitespace in front of a string adds no field. */
  lemma {:induction false} FieldsAfterSpace(sp: string, t: string)
    requires AllSpace(sp)
    ensures Fields(sp + t) == Fields(t)
  {
    if sp != [] {
      assert (sp + t)[0] == sp[0];
      assert (sp + t)[1..] == sp[1..] + t;
      FieldsAfterSpace(sp[1..], t);
    } else {
      assert sp + t == t;
    }
  }

  /** A word followed by whitespace or nothing is the first field. */
  lemma FieldsAfterWord(w: string, t: string)
    requires w != [] && NoSpace(w) && SpaceLed(t)
    ensures Fields(w + t) == [w] + Fields(t)
  {
    WordRunOf(w, t);
    assert (w + t)[..|w|] == w;
    assert (w + t)[|w|..] == t;
  }

  /** A string has no field exactly when it is all whitespace; a non-empty
      whitespace-only line therefore has no field to index. */
  lemma {:induction false} FieldsEmptyIff(s: string)
    ensures Fields(s) == [] <==> AllSpace(s)
    decreases |s|
  {
    if s != [] && IsSpace(s[0]) {
      FieldsEmptyIff(s[1..]);
      assert AllSpace(s) <==> AllSpace(s[1..]) by {
        if AllSpace(s[1..]) {
          forall i | 0 <= i < |s| ensures IsSpace(s[i]) {
            if i > 0 {
              assert s[i] == s[1..][i - 1];
            }
          }
        }
      }
    }
  }

  /** Python's `sep.join(xs)`. */
  function Join(sep: string, xs: seq<string>): string {
    if xs == [] then []
    else if |xs| == 1 then xs[0]
    else xs[0] + sep + Join(sep, xs[1..])
  }

  /** Splitting undoes joining with one space: words without whitespace
      joined by " " split back into the same words. */
  lemma {:induction false} FieldsOfJoin(ws: seq<string>)
    requires forall i :: 0 <= i < |ws| ==> ws[i] != [] && NoSpace(ws[i])
    ensures Fields(Join(" ", ws)) == ws
  {
    if |ws| == 1 {
      FieldsAfterWord(ws[0], []);
      assert ws[0] + [] == ws[0];
    } else if |ws| > 1 {
      var rest := Join(" ", ws[1..]);
      FieldsOfJoin(ws[1..]);
      FieldsAfterSpace(" ", rest);
      FieldsAfterWord(ws[0], " " + rest);
      assert ws[0] + " " + rest == ws[0] + (" " + rest);
    }
  }

  /** What `print(x)` writes: the text and a line feed. */
  function Print(x: string): string {
    x + "\n"
  }

  /** What a sequence of `print` calls writes. */
  function Unlines(xs: seq<string>): string {
    if xs == [] then [] else Print(xs[0]) + Unlines(xs[1..])
  }

  /** Length of the first line of a text, its terminator excluded. */
  function LineLength(t: string): (n: nat)
    ensures n <= |t| && '\n' !in t[..n]
    ensures n < |t| ==> t[n] == '\n'
  {
    if t == [] || t[0] == '\n' then 0 else 1 + LineLength(t[1..])
  }

  /** The lines of a text: split at each line feed, with a final line feed
      ending the last line rather than starting an empty one. */
  function Lines(t: string): seq<string>
    decreases |t|
  {
    if t == [] then []
    else
      var n := LineLength(t);
      [t[..n]] + (if n == |t| then [] else Lines(t[n + 1..]))
  }

  /** No string of the list holds a line feed. */
  predicate NoLineFeed(xs: seq<string>) {
    forall i :: 0 <= i < |xs| ==> '\n' !in xs[i]
  }

  /** Reading the lines back from printed output gives the printed strings,
      provided none of them holds a line feed of its own. */
  lemma {:induction false} LinesOfUnlines(xs: seq<string>)
    requires NoLineFeed(xs)
    ensures Lines(Unlines(xs)) == xs
  {
    if xs != [] {
      var t := Unlines(xs);
      LineLengthOf(xs[0], Unlines(xs[1..]));
      assert t == xs[0] + "\n" + Unlines(xs[1..]);
      assert t[..|xs[0]|] == xs[0];
      assert t[|xs[0]| + 1..] == Unlines(xs[1..]);
      LinesOfUnlines(xs[1..]);
    }
  }

  lemma {:induction false} LineLengthOf(x: string, rest: string)
    requires '\n' !in x
    ensures LineLength(x + "\n" + rest) == |x|
  {
    if x != [] {
      assert (x + "\n" + rest)[1..] == x[1..] + "\n" + rest;
      LineLengthOf(x[1..], rest);
    }
  }

  /** Printing a line-feed join of non-empty lines is printing each line. */
  lemma {:induction false} PrintJoin(xs: seq<string>)
    requires xs != []
    ensures Print(Join("\n", xs)) == Unlines(xs)
  {
    if |xs| > 1 {
      PrintJoin(xs[1..]);
    }
  }
}
